=== FILE: README.md ===
# certbox certificate manager in Dafny

certbox runs a small private certificate authority for client (mutual-TLS) certificates.
Its `CertificateManager` handles the certificate lifecycle:

- **Bootstrap.** It creates a self-signed CA on first use.
- **Issuance.** It issues one client certificate per username, with a private key and a
  PKCS#12 bundle.
- **Revocation.** It records revoked serial numbers in a ledger file
  (`revoked_serials.txt`, one decimal serial per line, ascending).
- **Renewal.** It renews a user's certificate and optionally revokes the old one.
- **CRL.** It regenerates the signed certificate revocation list (CRL, RFC 5280
  section 5) from the CA and the ledger. It serves the CRL, generating it on first
  fetch.

This project models that manager and proves properties of the model. It covers two
versions of the class:

- the maintained one in `certbox/core/certificate_manager.py`;
- the older one in `main.py`, which has the same operations except renewal and
  inlines certificate generation into `create_client_certificate`.

One Dafny class stands for both.

The model has these modules:

- `Wrappers`: `Option`, `Result` and `Outcome` (pass or fail). The failures the
  manager raises:
  - `HTTPException` with 409 or 404;
  - a missing CA file;
  - a ledger line that `int()` rejects;
  - a serial number the X.509 builders refuse;
  - a subject name attribute of a length `x509.NameAttribute` refuses.
- `Decimal`: Python's `str(int)` and `int(str)` on decimal text. This covers a sign,
  underscores between digits and surrounding whitespace handled by the caller. The
  round trip `int(str(n)) == n` is proved.
- `Ledger`: the revocation ledger as text.
  - Reading: `str.strip()` with Python's whitespace characters; universal-newline line
    splitting; blank lines skipped; the first bad line raising.
  - Proved for a ledger text of any content: reading succeeds exactly when every line is blank
    or an integer; it then gives exactly the integers the lines hold; otherwise it
    reports the stripped text of the first line `int()` rejects. A blank line anywhere
    changes nothing.
  - Writing: `sorted()` of the set, one `f"{serial}\n"` per serial.
  - Proved: reading back what was written gives the same set; adding a serial is
    idempotent and order-independent.
- `X509`: the certificate and CRL records the `cryptography` builders produce.
  - Profiles: the CA profile (a self-signed root that may sign certificates and CRLs
    only) and the client profile (an end-entity certificate for client authentication).
  - Builders: the CA and client certificate builders, and the CRL builder loop.
  - Name attributes: `x509.NameAttribute` (cryptography 42 and later) raises
    `ValueError` for a country name that is not 2 UTF-8 bytes long and for a common
    name outside 1..64 UTF-8 bytes. The subject name is built before the serial number
    is drawn, so this refusal comes first. It applies to the username of a client
    certificate and to the configured CA common name.
  - Proved: a client certificate chains to its CA (RFC 5280 section 4.2.1.1 authority
    key identifier, section 4.2.1.9 basic constraints, section 4.2.1.3 key usage) and
    cannot act as a CA.
- `Manager`: the class `CertificateManager`.
  - State: one field per file on disk (CA certificate, CA key, CRL, ledger, and per
    user the certificate, key and bundle). `None` or a missing map key is a file that
    does not exist.
  - Operations: one method per operation of the source. Each is proved against
    predicates that state the new state in full and what each failure leaves behind.
  - Invariant: "the CRL on disk lists exactly the ledger's serials" holds after every
    successful regeneration.
- `Scenario`: short fresh-deployment runs through the methods:
  - duplicate issuance is a 409;
  - a second revocation leaves the ledger file unchanged;
  - the CRL lists the revoked serial once.

These are parameters of the model:

- **Time.** One `now` (seconds) per operation stands for every
  `datetime.now(timezone.utc)` call in it.
- **Randomness.** The key identity (`keyId`) and the serial number stand for
  `rsa.generate_private_key` and `x509.random_serial_number()`.

### Behaviour of the code worth knowing

- **A partial CA is regenerated.** `__init__` creates a CA whenever `ca.crt` or
  `ca.key` is missing (certificate_manager.py:34-36). A partially present CA is
  therefore replaced by a new one. `Manager.CertificateManager.EnsureCa` does the
  same.
- **Renewal is not atomic.** `renew_certificate` overwrites the user's files before it
  revokes the old serial. If the ledger then fails to parse, the new certificate stays
  on disk and the old serial is not revoked. `RenewCertificate` states exactly that
  state.
- **The old serial is revoked only when non-zero.** Renewal revokes the old serial only
  when `revoke_old` is set and the serial is non-zero (`if revoke_old and old_serial`).
- **Revocation dates drift.** Every regeneration stamps each CRL entry with the current
  time, so revocation dates move forward with each rebuild.
- **Revoking rewrites the ledger in canonical form.** `_add_revoked_serial` writes the
  whole set back sorted, one serial per line. A ledger written by hand as "3\n1\n" is
  rewritten as "1\n3\n" when 1 is revoked again.

## Model

| member | source | states |
|---|---|---|
| Decimal.IntToString | certbox/core/certificate_manager.py:130 | `str()` of an integer is a minus sign for a negative number followed by a non-empty run of digits without a leading zero |
| Decimal.ParseInt | certbox/core/certificate_manager.py:121 | `int()` accepts only non-empty text; a negative result comes from a leading minus; text is accepted exactly when what follows its optional "+" or "-" is digit groups joined by single underscores; digits read as their decimal value, negated after "-" and unchanged after "+" |
| Decimal.ParseIntRoundTrip | certbox/core/certificate_manager.py:121-130 | `int()` reads back every serial `str()` wrote, negative ones included |
| Ledger.StripLeft | certbox/core/certificate_manager.py:121 | `strip()` removes exactly a leading run of whitespace: the result is a suffix starting with a non-space, and what was removed is all whitespace |
| Ledger.StripRight | certbox/core/certificate_manager.py:121 | the same for trailing whitespace: a prefix ending in a non-space, with only whitespace removed |
| Ledger.Strip | certbox/core/certificate_manager.py:121 | `line.strip()` neither starts nor ends with whitespace and is no longer than the line |
| Ledger.StripSpan | certbox/core/certificate_manager.py:121 | `line.strip()` is a contiguous part of the line with only whitespace before and after it |
| Ledger.Lines | certbox/core/certificate_manager.py:120-121 | no line holds a break; an empty text yields no line; a text without a break is one line (that each break starts a new line is `Ledger.LinesAfterBreak`) |
| Ledger.LinesAfterBreak | certbox/core/certificate_manager.py:120-121 | a "\n" or a "\r" ends the line before it and the rest of the text is split on its own, so the text is split at "\n" and "\r" (an extra blank line after "\r\n", harmless because blank lines are skipped; the terminator `strip()` would remove anyway is not kept) |
| Ledger.ParseLines | certbox/core/certificate_manager.py:121 | the set read has at most one serial per line; an error carries non-blank text that `int()` rejects |
| Ledger.ParseLinesAccepts | certbox/core/certificate_manager.py:120-121 | reading succeeds exactly when every line is blank after stripping or holds an integer |
| Ledger.ParseLinesValue | certbox/core/certificate_manager.py:120-121 | a successful read holds exactly the integers of the non-blank lines |
| Ledger.ParseLinesError | certbox/core/certificate_manager.py:120-121 | a failed read reports the stripped text of the first line `int()` rejects, all lines before it being readable |
| Ledger.BlankLineIgnored | certbox/core/certificate_manager.py:121 | removing a blank line at any position does not change the result of reading |
| Ledger.ParseLedgerMeaning | certbox/core/certificate_manager.py:115-121 | the three facts above for an existing ledger file holding a text of any content |
| Ledger.ParseLedger | certbox/core/certificate_manager.py:115-118 | a ledger file that does not exist reads as the empty set |
| Ledger.BlankLineSkipped | certbox/core/certificate_manager.py:121 | a blank first line of the text (whitespace other than line breaks) contributes nothing and raises nothing |
| Ledger.SortedSerials | certbox/core/certificate_manager.py:129 | `sorted()` of the set is strictly ascending and holds exactly the set's elements, each once |
| Ledger.LedgerRoundTrip | certbox/core/certificate_manager.py:115-130 | reading the file written for any set of serials gives back that set |
| Ledger.WriteSerials | certbox/core/certificate_manager.py:128-130 | the loop writes one decimal line per serial in ascending order, and the result reads back as the written set |
| Ledger.LedgerAfterAdd | certbox/core/certificate_manager.py:123-130 | after adding, the ledger reads as the old set plus the serial; an unreadable ledger raises its error and is not rewritten |
| Ledger.AddSerialIdempotent | certbox/core/certificate_manager.py:123-130 | revoking a serial twice writes the same file as revoking it once; the first revocation may already rewrite a file not in sorted form |
| Ledger.AddTwoSerials | certbox/core/certificate_manager.py:123-130 | two additions in a row write the file for the old set plus both serials |
| Ledger.AddSerialCommutes | certbox/core/certificate_manager.py:123-130 | the file does not depend on the order in which two serials were revoked |
| X509.SubjectName | certbox/core/certificate_manager.py:144-150 | the subject carries the configured organisation and country and the given common name |
| X509.Utf8Length | certbox/core/certificate_manager.py:144-150 | the UTF-8 length of a text is between its length and four times its length, and zero only for the empty text |
| X509.NameCheck | certbox/core/certificate_manager.py:144-150 | the subject name is accepted exactly when the country is 2 UTF-8 bytes and the common name 1..64; a bad country is reported first, then the common name |
| X509.BuildCheck | certbox/core/certificate_manager.py:144-159 | the name attributes are checked before the serial number; each refusal names the offending value |
| X509.AsciiNameAccepted | certbox/core/certificate_manager.py:144-150 | under the default configuration, every ASCII username of 1..64 characters is accepted as a common name |
| X509.DefaultNamesAccepted | certbox/core/certificate_manager.py:46-52 | the default country and CA common name pass the name check |
| X509.GenerateKey | certbox/core/certificate_manager.py:41-44 | a new key has the public exponent 65537 and the configured size; the client key at lines 138-141 is drawn the same way |
| X509.BuildCaCertificate | certbox/core/certificate_manager.py:47-89 | fails exactly for a refused name attribute length or a serial outside 1..2^159-1, name first; otherwise the CA profile (self-issued, CA basic constraint, keyCertSign and cRLSign only, key identifiers of its own key) valid for the CA period from now |
| X509.CaCertificateIsRoot | certbox/core/certificate_manager.py:67-89 | the CA verifies against itself, may sign CRLs, and may not be used for digital signatures or key encipherment |
| X509.BuildClientCertificate | certbox/core/certificate_manager.py:144-191 | fails exactly for a refused name attribute length (the username as common name) or a serial out of range, name first; otherwise the client profile issued and signed by the CA, valid for the certificate period from now |
| X509.ClientCertificateChains | certbox/core/certificate_manager.py:152-191 | a client certificate chains to its CA: issuer, signer and authority key identifier match, and the CA may sign certificates |
| X509.ClientCertificateIsLeaf | certbox/core/certificate_manager.py:170-191 | a client certificate may sign neither certificates nor CRLs and serves client authentication only |
| X509.CrlEntryCount | certbox/core/certificate_manager.py:319-327 | a CRL has one entry per revoked serial and no entry for anything else |
| X509.BuildCrl | certbox/core/certificate_manager.py:310-329 | succeeds exactly when every serial is in range; then the CRL is issued by the CA, valid for one day, and lists each revoked serial once, dated now; otherwise the error names an out-of-range revoked serial |
| Manager.LoadCa | certbox/core/certificate_manager.py:105-113 | loading succeeds exactly when both CA files exist; ca.crt is opened first, so its absence is reported first |
| Manager.RevokedSerials | certbox/core/certificate_manager.py:115-121 | a missing ledger is the empty set; otherwise the ledger reads as a set exactly when every line is blank or an integer, the set holds exactly the integers the lines hold, and a failure reports the stripped first bad line |
| Manager.IssueCheck | certbox/core/certificate_manager.py:132-191 | issuance can proceed exactly when the CA is on disk, the name attributes have accepted lengths and the serial is in range; the failures come in that order |
| Manager.RegeneratedCrlMirrorsLedger | certbox/core/certificate_manager.py:308-333 | a successfully regenerated CRL lists exactly the ledger's serials, once each, and is issued and signed by the CA |
| Manager.FailedRegenerationKeepsCrl | certbox/core/certificate_manager.py:308-333 | when regeneration raises, the CRL file is the one that was there before |
| Manager.EmptyLedgerEmptyCrl | certbox/core/certificate_manager.py:101-103 | with no ledger, the CRL created with the CA has no entries |
| Manager.WroteClientFilesKept | certbox/core/certificate_manager.py:288-295 | revoking the old serial during renewal leaves the new certificate, key and bundle in place |
| Manager.IssuingTouchesOnlyThatUser | certbox/core/certificate_manager.py:132-216 | issuing for one user leaves every other user's certificate, the ledger and the CRL unchanged and preserves the CRL–ledger agreement; under a CA of the profile, the new certificate chains to it and cannot sign certificates |
| Manager.CertificateManager.constructor | certbox/core/certificate_manager.py:22-32 | the manager works on the given configuration and the files present |
| Manager.CertificateManager.EnsureCa | certbox/core/certificate_manager.py:34-36 | an existing CA (both files) is never regenerated and nothing changes; otherwise a CA is created; the older manager does the same at main.py lines 67-75 |
| Manager.CertificateManager.CreateCa | certbox/core/certificate_manager.py:38-103 | either the name attributes (configured country or CA common name) or the serial are refused and nothing is written, or a CA of the profile with a fresh key is written and the CRL regenerated from the ledger |
| Manager.CertificateManager.AddRevokedSerial | certbox/core/certificate_manager.py:123-130 | the ledger afterwards reads as the old set plus the serial and nothing else changes; an unreadable ledger raises and nothing changes; the older manager does the same at main.py lines 162-169 |
| Manager.CertificateManager.GenerateCrl | certbox/core/certificate_manager.py:308-333 | only the CRL file changes; on success it lists exactly the ledger's serials; a missing CA file, an unreadable ledger or a refused serial raise and leave the CRL as it was; the older manager does the same at main.py lines 297-322 |
| Manager.CertificateManager.RecordRevocation | certbox/core/certificate_manager.py:251-255 | the serial joins the ledger, then the CRL is regenerated; on success the serial is revoked and the CRL mirrors the ledger; when regeneration fails the ledger keeps the serial |
| Manager.CertificateManager.GenerateAndSave | certbox/core/certificate_manager.py:132-216 | with the CA present, the name attributes accepted and the serial in range, the user's certificate (client profile, issued by the CA on disk), key and bundle are written and nothing else changes; otherwise nothing is written |
| Manager.CertificateManager.CreateClientCertificate | certbox/core/certificate_manager.py:218-238 | 409 and no change when the user already has a certificate; a missing CA file, a refused name attribute length or an out-of-range serial raises and nothing changes; otherwise the files are written and the report gives the serial and the validity window; the older manager does the same at main.py lines 171-271 |
| Manager.CertificateManager.RevokeCertificate | certbox/core/certificate_manager.py:240-262 | 404 and no change for an unknown user; otherwise the stored certificate's serial joins the ledger, the CRL is regenerated, the certificate stays on disk, and on success the CRL mirrors the ledger; the older manager does the same at main.py lines 273-295 |
| Manager.CertificateManager.RenewCertificate | certbox/core/certificate_manager.py:264-306 | 404 for an unknown user; a missing CA file, a refused name attribute length or an out-of-range serial raises and nothing changes; otherwise a new certificate replaces the user's files whatever happens next; the serial read before the overwrite is revoked when asked for and non-zero, and the report names it only then |
| Manager.CertificateManager.GetCrl | certbox/core/certificate_manager.py:335-341 | an existing CRL file is returned unchanged; a missing one is generated from the CA and the ledger first; the older manager does the same at main.py lines 324-330 |
| Scenario.Bootstrap | certbox/core/certificate_manager.py:34-36 | a fresh deployment gets a CA and an empty CRL, and no ledger file |
| Scenario.UserNamesAccepted | certbox/core/certificate_manager.py:144-150 | the usernames of the scenarios pass the name check |
| Scenario.AliceIssued | certbox/core/certificate_manager.py:218-238 | on a fresh deployment the first issuance succeeds and the user's certificate is the only one |
| Scenario.IssueConflict | certbox/core/certificate_manager.py:218-238 | issuing twice for the same user is a 409, the step test_api.py lines 55-61 take; another user is then issued a certificate |
| Scenario.AliceRevoked | certbox/core/certificate_manager.py:240-262 | revoking the only user's certificate reports "revoked", as test_api.py lines 38-45 check, and the ledger then reads as that serial alone |
| Scenario.RevokeTwice | certbox/core/certificate_manager.py:240-262 | revoking reports "revoked"; revoking again rewrites the same ledger file; the CRL then lists the serial exactly once |

## Left out

- **Cryptography.** RSA keys, signatures, SHA-256, PEM/DER and PKCS#12 encodings are
  not computed. A key is an identity (`keyId`); a signature is the signer's key
  identity; key identifiers are the key's identity.
- **The library's remaining refusals.** The `cryptography` library also refuses a key
  size under 1024 bits and a validity window ending before it starts. Neither is
  modelled, because the configuration that would trigger them is outside the manager.
- **Loading and parsing the CA.** A CA file that exists but does not parse (PEM or DER
  errors in `_load_ca`) is not modelled. Neither is an unreadable user certificate in
  `revoke_certificate` (certificate_manager.py:248-249) or in `renew_certificate`
  (certificate_manager.py:285-286). File contents are the parsed records.
- **Filesystem failures.** Permission errors and disk-full failures during writes are
  not modelled. Every write succeeds.
- **Paths and configuration.** Directory layout, `get_directories`, path construction
  and configuration loading from the environment (`certbox/config.py`) are not part of
  this model. The configuration is a value; `DefaultConfig` carries certbox's
  defaults.
- **Usernames as paths.** The model keys each user's files by the username and so
  assumes that distinct usernames name distinct files. The CLI accepts any username
  (certbox/cli.py:33-38), and one such as `../ca/ca` makes the per-user paths point at
  the CA's own files; that aliasing is not modelled.
- **The front ends.** The FastAPI routes, the CLI and the PFX download endpoint are
  not part of this model. Neither is their mapping of other exceptions to HTTP 500.
- **Result fields.**
  - The file paths in the returned dictionaries are left out.
  - `serial_number` is reported as an integer, not its decimal string.
  - The ISO-8601 timestamp formatting is left out.
- Decimal.ParseInt: does not model the limit of 4300 digits that Python's `int()` puts on
  decimal text (`sys.int_info.default_max_str_digits`, from Python 3.11 and the 3.10.7,
  3.9.14 and 3.8.14 releases), because the model's integers are unbounded and the serials
  certbox writes have at most 48 digits. A ledger line of more than 4300 digits raises
  in certbox and reads as an integer here. `str()` has the same limit, which `IntToString`
  does not model either. Python's `int()` also accepts non-ASCII decimal digits (other
  scripts' digits); the model accepts ASCII digits only, so a ledger line made of such
  digits reads as invalid here.
- Manager.RevokedSerials: takes the ledger as decoded text. The `UnicodeDecodeError` the
  text-mode read raises for bytes the locale encoding cannot decode is not modelled, and
  neither is the 4300-digit refusal of `int()` described above; a ledger line with more
  digits reads as an integer here while certbox raises.
- **Concurrency.** Concurrent calls and the races between check and write are not
  modelled. Each method runs alone.
- **Clock granularity.** Several clock reads within one operation may differ in
  reality. The model uses one `now` for all of them.

=== FILE: Decimal.dfy ===
/**
 * Decimal text for integers, as Python's str(int) writes it and int(str) reads it.
 * The revocation ledger stores one such text per line.
 */
module Decimal {
  import opened Wrappers

  predicate IsDigit(c: char) {
    '0' <= c <= '9'
  }

  function DigitValue(c: char): (d: nat)
    requires IsDigit(c)
    ensures d < 10
  {
    (c as int) - ('0' as int)
  }

  function DigitChar(d: nat): (c: char)
    requires d < 10
    ensures IsDigit(c) && DigitValue(c) == d
  {
    (('0' as int) + d) as char
  }

  predicate AllDigits(s: string) {
    forall i :: 0 <= i < |s| ==> IsDigit(s[i])
  }

  /** str(n) for n >= 0: the shortest decimal digit string, most significant digit first. */
  function NatToString(n: nat): (s: string)
    ensures |s| > 0 && AllDigits(s)
    ensures |s| > 1 ==> s[0] != '0'
    decreases n
  {
    if n < 10 then [DigitChar(n)] else NatToString(n / 10) + [DigitChar(n % 10)]
  }

  /** str(n): a minus sign for negative numbers, then the digits of |n|. */
  function IntToString(n: int): (s: string)
    ensures |s| > 0 && (s[0] == '-' <==> n < 0)
    ensures var digits := if n < 0 then s[1..] else s;
      |digits| > 0 && AllDigits(digits) && (|digits| > 1 ==> digits[0] != '0')
  {
    if n < 0 then
      var digits := NatToString(-n);
      assert ("-" + digits)[1..] == digits;
      "-" + digits
    else NatToString(n)
  }

  /** str(n) holds only decimal digits, after a leading minus sign for negative n. */
  lemma IntToStringChars(n: int)
    ensures forall i :: 0 <= i < |IntToString(n)| ==>
      IsDigit(IntToString(n)[i]) || (i == 0 && n < 0 && IntToString(n)[i] == '-')
  {
  }

  predicate DoubleUnderscoreAt(s: string, i: nat)
    requires i + 1 < |s|
  {
    s[i] == '_' && s[i + 1] == '_'
  }

  /**
   * The digit part int() accepts: decimal digits, where one underscore may stand
   * between two digits ("1_000"), but not at either end and never two in a row.
   */
  predicate IsDigitGroup(s: string) {
    && |s| > 0
    && IsDigit(s[0])
    && IsDigit(s[|s| - 1])
    && (forall i :: 0 <= i < |s| ==> IsDigit(s[i]) || s[i] == '_')
    && (forall i :: 0 <= i < |s| - 1 ==> !DoubleUnderscoreAt(s, i))
  }

  /** The value of a digit string, underscores ignored. */
  function DigitsValue(s: string): nat
    requires forall i :: 0 <= i < |s| ==> IsDigit(s[i]) || s[i] == '_'
    decreases |s|
  {
    if s == [] then 0
    else if s[|s| - 1] == '_' then DigitsValue(s[..|s| - 1])
    else DigitsValue(s[..|s| - 1]) * 10 + DigitValue(s[|s| - 1])
  }

  /**
   * int(s) on text that has already been stripped: an optional sign, then a digit group.
   * Only a leading minus gives a negative number; text is read exactly when what follows
   * its sign, if any, is a digit group; digits are read as their value, negated after a
   * minus and unchanged after a plus.
   */
  function ParseInt(s: string): (r: Option<int>)
    ensures r.Some? ==> s != []
    ensures r.Some? && r.value < 0 ==> s[0] == '-'
    ensures s != [] && s[0] != '-' && s[0] != '+' ==> (r.Some? <==> IsDigitGroup(s))
    ensures s != [] && (s[0] == '-' || s[0] == '+') ==> (r.Some? <==> IsDigitGroup(s[1..]))
    ensures s != [] && AllDigits(s) ==> r == Some(DigitsValue(s))
    ensures |s| > 1 && s[0] == '+' && AllDigits(s[1..]) ==> r == Some(DigitsValue(s[1..]))
    ensures |s| > 1 && s[0] == '-' && AllDigits(s[1..]) ==> r == Some(-(DigitsValue(s[1..]) as int))
  {
    if |s| > 0 && (s[0] == '-' || s[0] == '+') then
      var body := s[1..];
      if IsDigitGroup(body) then
        var magnitude: int := DigitsValue(body);
        Some(if s[0] == '-' then -magnitude else magnitude)
      else None
    else if IsDigitGroup(s) then Some(DigitsValue(s))
    else None
  }

  lemma {:induction false} NatToStringValue(n: nat)
    ensures DigitsValue(NatToString(n)) == n
    decreases n
  {
    var s := NatToString(n);
    if n >= 10 {
      NatToStringValue(n / 10);
      assert s[..|s| - 1] == NatToString(n / 10);
    }
  }

  lemma NatToStringDigitGroup(n: nat)
    ensures IsDigitGroup(NatToString(n))
  {
    var s := NatToString(n);
    assert forall i :: 0 <= i < |s| - 1 ==> IsDigit(s[i]);
  }

  /** int() reads the digits str() writes for a natural number. */
  lemma ParseNatString(n: nat)
    ensures ParseInt(NatToString(n)) == Some(n)
  {
    NatToStringValue(n);
  }

  /** int() reads "-" followed by the digits of a positive number as its negation. */
  lemma ParseNegativeString(n: nat)
    requires n > 0
    ensures ParseInt("-" + NatToString(n)) == Some(-(n as int))
  {
    var digits := NatToString(n);
    assert ("-" + digits)[1..] == digits;
    NatToStringDigitGroup(n);
    NatToStringValue(n);
  }

  /** What str writes, int reads back: int(str(n)) == n. */
  lemma ParseIntRoundTrip(n: int)
    ensures ParseInt(IntToString(n)) == Some(n)
  {
    if n < 0 {
      ParseNegativeString(-n);
    } else {
      ParseNatString(n);
    }
  }
}

=== FILE: Ledger.dfy ===
/**
 * The revocation ledger file, revoked_serials.txt: one decimal serial number per line.
 * Reading splits the text into lines, strips each line, skips the blank ones and reads
 * every other one with int(); a missing file reads as the empty set.
 * Writing emits every serial of the set once, in ascending order, each followed by "\n".
 */
module Ledger {
  import opened Wrappers
  import Decimal
  import Sets

  /** Python's str.isspace, the characters str.strip() removes. */
  predicate IsSpace(c: char) {
    || ('\t' <= c <= '\r') || ('\U{1C}' <= c <= '\U{1F}') || c == ' '
    || c == '\U{85}' || c == '\U{A0}' || c == '\U{1680}'
    || ('\U{2000}' <= c <= '\U{200A}') || c == '\U{2028}' || c == '\U{2029}'
    || c == '\U{202F}' || c == '\U{205F}' || c == '\U{3000}'
  }

  predicate NoSpace(s: string) {
    forall i :: 0 <= i < |s| ==> !IsSpace(s[i])
  }

  predicate AllSpace(s: string) {
    forall i :: 0 <= i < |s| ==> IsSpace(s[i])
  }

  /** s.lstrip(): the longest suffix of s that does not start with whitespace. */
  function StripLeft(s: string): (r: string)
    ensures |r| <= |s| && r == s[|s| - |r|..]
    ensures r == [] || !IsSpace(r[0])
    ensures AllSpace(s[..|s| - |r|])
    decreases |s|
  {
    if s != [] && IsSpace(s[0]) then StripLeft(s[1..]) else s
  }

  /** s.rstrip(): the longest prefix of s that does not end with whitespace. */
  function StripRight(s: string): (r: string)
    ensures |r| <= |s| && r == s[..|r|]
    ensures r == [] || !IsSpace(r[|r| - 1])
    ensures AllSpace(s[|r|..])
    decreases |s|
  {
    if s != [] && IsSpace(s[|s| - 1]) then
      var r := StripRight(s[..|s| - 1]);
      assert s[|r|..] == s[..|s| - 1][|r|..] + [s[|s| - 1]];
      r
    else s
  }

  /** s.strip(): neither starts nor ends with whitespace, and is no longer than s. */
  function Strip(s: string): (r: string)
    ensures |r| <= |s|
    ensures r == [] || (!IsSpace(r[0]) && !IsSpace(r[|r| - 1]))
  {
    StripRight(StripLeft(s))
  }

  /** A prefix r of a suffix left of s sits in s at the index where left starts. */
  lemma SpanOfSuffixPrefix(s: string, left: string, r: string)
    requires |r| <= |left| <= |s| && left == s[|s| - |left|..] && r == left[..|r|]
    requires AllSpace(s[..|s| - |left|]) && AllSpace(left[|r|..])
    ensures r == s[|s| - |left|..|s| - |left| + |r|]
    ensures AllSpace(s[|s| - |left| + |r|..])
  {
    assert s[|s| - |left| + |r|..] == left[|r|..];
  }

  /** r is the part of s from index i on, with only whitespace before and after it. */
  predicate SpanAt(s: string, r: string, i: int) {
    && 0 <= i <= |s| - |r|
    && r == s[i..i + |r|]
    && AllSpace(s[..i])
    && AllSpace(s[i + |r|..])
  }

  /** What s.strip() removes is a leading and a trailing run of whitespace, and nothing else. */
  lemma StripSpan(s: string)
    ensures exists i :: SpanAt(s, Strip(s), i)
  {
    var left := StripLeft(s);
    var r := StripRight(left);
    SpanOfSuffixPrefix(s, left, r);
    assert SpanAt(s, Strip(s), |s| - |left|);
  }

  lemma StripNoSpace(s: string)
    requires NoSpace(s)
    ensures Strip(s) == s
  {
    var l := StripLeft(s);
    assert |l| == |s|;
    var r := StripRight(l);
    assert |r| == |l|;
  }

  lemma StripAllSpace(s: string)
    requires AllSpace(s)
    ensures Strip(s) == []
  {
    var l := StripLeft(s);
    assert l == [];
  }

  /**
   * Line breaks of a file read in text mode: universal newlines turn "\r\n" and a lone
   * "\r" into "\n". Splitting at both characters gives the same lines up to extra
   * empty ones between "\r" and "\n", and reading skips empty lines anyway.
   */
  predicate IsLineBreak(c: char) {
    c == '\n' || c == '\r'
  }

  predicate NoLineBreak(s: string) {
    forall i :: 0 <= i < |s| ==> !IsLineBreak(s[i])
  }

  /** The first index at or after i that holds a line break, or |s| when there is none. */
  function BreakFrom(s: string, i: nat): (k: nat)
    requires i <= |s|
    ensures i <= k <= |s|
    ensures forall j :: i <= j < k ==> !IsLineBreak(s[j])
    ensures k < |s| ==> IsLineBreak(s[k])
    decreases |s| - i
  {
    if i == |s| || IsLineBreak(s[i]) then i else BreakFrom(s, i + 1)
  }

  /**
   * The lines of a text, without their terminators; a last line without one is kept.
   * No line holds a line break, and a text without line breaks is a single line.
   */
  function Lines(s: string): (r: seq<string>)
    ensures forall i :: 0 <= i < |r| ==> NoLineBreak(r[i])
    ensures r == [] <==> s == []
    ensures s != [] && NoLineBreak(s) ==> r == [s]
    decreases |s|
  {
    if s == [] then []
    else
      var k := BreakFrom(s, 0);
      if k == |s| then [s] else [s[..k]] + Lines(s[k + 1..])
  }

  /**
   * set(int(line.strip()) for line in f if line.strip()): the first non-blank line that
   * int() rejects raises, and the error carries that line's stripped text.
   */
  function ParseLines(lines: seq<string>): (r: Result<set<int>, string>)
    ensures r.Ok? ==> |r.value| <= |lines|
    ensures r.Err? ==> r.error != [] && !IsSpace(r.error[0]) && Decimal.ParseInt(r.error).None?
    decreases |lines|
  {
    if lines == [] then Ok({})
    else
      var text := Strip(lines[0]);
      if text == [] then ParseLines(lines[1..])
      else match Decimal.ParseInt(text)
        case None => Err(text)
        case Some(serial) =>
          match ParseLines(lines[1..])
          case Err(bad) => Err(bad)
          case Ok(rest) => Ok({serial} + rest)
  }

  /** _get_revoked_serials: None stands for a ledger file that does not exist. */
  function ParseLedger(file: Option<string>): (r: Result<set<int>, string>)
    ensures file.None? ==> r == Ok({})
  {
    match file
    case None => Ok({})
    case Some(text) => ParseLines(Lines(text))
  }

  /** A line the reader accepts: blank once stripped, or text that int() reads. */
  predicate Readable(line: string) {
    Strip(line) == [] || Decimal.ParseInt(Strip(line)).Some?
  }

  /** The line is not blank and int() reads it as x. */
  predicate ReadsAs(line: string, x: int) {
    Strip(line) != [] && Decimal.ParseInt(Strip(line)) == Some(x)
  }

  /** Some line holds the serial x. */
  ghost predicate Lists(lines: seq<string>, x: int) {
    exists i :: 0 <= i < |lines| && ReadsAs(lines[i], x)
  }

  /** Line k is the first line the reader rejects. */
  predicate FirstUnreadable(lines: seq<string>, k: int) {
    && 0 <= k < |lines|
    && !Readable(lines[k])
    && forall j :: 0 <= j < k ==> Readable(lines[j])
  }

  /** What reading does with the first line, given what it does with the rest. */
  lemma ParseLinesStep(lines: seq<string>)
    requires lines != []
    ensures !Readable(lines[0]) ==> ParseLines(lines) == Err(Strip(lines[0]))
    ensures Readable(lines[0]) && ParseLines(lines[1..]).Err? ==> ParseLines(lines) == ParseLines(lines[1..])
    ensures Readable(lines[0]) && ParseLines(lines[1..]).Ok? ==>
      && ParseLines(lines).Ok?
      && forall x :: x in ParseLines(lines).value <==> ReadsAs(lines[0], x) || x in ParseLines(lines[1..]).value
  {
  }

  /** Every element of s satisfies p exactly when its head and every element of its tail do. */
  lemma EveryCons<T>(s: seq<T>, p: T -> bool)
    requires s != []
    ensures (forall i :: 0 <= i < |s| ==> p(s[i])) <==> p(s[0]) && forall i :: 0 <= i < |s[1..]| ==> p(s[1..][i])
  {
    if p(s[0]) && forall i :: 0 <= i < |s[1..]| ==> p(s[1..][i]) {
      forall i | 0 <= i < |s|
        ensures p(s[i])
      {
        if i > 0 {
          assert s[i] == s[1..][i - 1];
        }
      }
    }
  }

  /** Some element of s satisfies p exactly when its head or some element of its tail does. */
  lemma SomeCons<T>(s: seq<T>, p: T -> bool)
    requires s != []
    ensures (exists i :: 0 <= i < |s| && p(s[i])) <==> p(s[0]) || exists i :: 0 <= i < |s[1..]| && p(s[1..][i])
  {
    var tail := s[1..];
    if exists i :: 0 <= i < |s| && p(s[i]) {
      var i :| 0 <= i < |s| && p(s[i]);
      if i > 0 {
        assert tail[i - 1] == s[i];
      }
    }
    if exists i :: 0 <= i < |tail| && p(tail[i]) {
      var i :| 0 <= i < |tail| && p(tail[i]);
      assert tail[i] == s[i + 1];
    }
  }

  lemma AllReadableCons(lines: seq<string>)
    requires lines != []
    ensures (forall i :: 0 <= i < |lines| ==> Readable(lines[i])) <==>
      Readable(lines[0]) && forall i :: 0 <= i < |lines[1..]| ==> Readable(lines[1..][i])
  {
    EveryCons(lines, Readable);
  }

  lemma ListsCons(lines: seq<string>, x: int)
    requires lines != []
    ensures Lists(lines, x) <==> ReadsAs(lines[0], x) || Lists(lines[1..], x)
  {
    SomeCons(lines, line => ReadsAs(line, x));
  }

  /** The reader succeeds exactly when every line is blank or holds an integer. */
  lemma {:induction false} ParseLinesAccepts(lines: seq<string>)
    ensures ParseLines(lines).Ok? <==> forall i :: 0 <= i < |lines| ==> Readable(lines[i])
    decreases |lines|
  {
    if lines != [] {
      ParseLinesStep(lines);
      ParseLinesAccepts(lines[1..]);
      AllReadableCons(lines);
    }
  }

  /** When the reader succeeds, its set holds exactly the integers of the non-blank lines. */
  lemma {:induction false} ParseLinesValue(lines: seq<string>)
    requires ParseLines(lines).Ok?
    ensures forall x :: x in ParseLines(lines).value <==> Lists(lines, x)
    decreases |lines|
  {
    if lines != [] {
      ParseLinesStep(lines);
      ParseLinesValue(lines[1..]);
      forall x
        ensures x in ParseLines(lines).value <==> Lists(lines, x)
      {
        ListsCons(lines, x);
      }
    }
  }

  /** When the reader fails, it reports the stripped text of the first line it rejects. */
  lemma {:induction false} ParseLinesError(lines: seq<string>)
    requires ParseLines(lines).Err?
    ensures exists k :: FirstUnreadable(lines, k) && ParseLines(lines).error == Strip(lines[k])
    decreases |lines|
  {
    ParseLinesStep(lines);
    if !Readable(lines[0]) {
      assert FirstUnreadable(lines, 0);
    } else {
      ParseLinesError(lines[1..]);
      var k :| FirstUnreadable(lines[1..], k) && ParseLines(lines[1..]).error == Strip(lines[1..][k]);
      forall j | 0 <= j < k + 1
        ensures Readable(lines[j])
      {
        if j > 0 {
          assert lines[j] == lines[1..][j - 1];
        }
      }
      assert FirstUnreadable(lines, k + 1);
    }
  }

  lemma ParseLinesSameHead(a: seq<string>, b: seq<string>)
    requires a != [] && b != [] && a[0] == b[0] && ParseLines(a[1..]) == ParseLines(b[1..])
    ensures ParseLines(a) == ParseLines(b)
  {
  }

  /** Dropping element k > 0 keeps the head and drops element k - 1 of the tail. */
  lemma DropBehindHead(s: seq<string>, k: nat)
    requires 0 < k < |s|
    ensures s[1..][k - 1] == s[k]
    ensures (s[..k] + s[k + 1..])[0] == s[0]
    ensures (s[..k] + s[k + 1..])[1..] == s[1..][..k - 1] + s[1..][k..]
  {
    var tail := s[1..];
    assert tail[..k - 1] == s[1..k] && tail[k..] == s[k + 1..];
    assert (s[..k] + s[k + 1..])[1..] == s[1..k] + s[k + 1..];
  }

  /** A blank line anywhere in the file contributes nothing and raises nothing. */
  lemma {:induction false} BlankLineIgnored(lines: seq<string>, k: nat)
    requires k < |lines| && Strip(lines[k]) == []
    ensures ParseLines(lines[..k] + lines[k + 1..]) == ParseLines(lines)
    decreases k
  {
    var dropped := lines[..k] + lines[k + 1..];
    if k == 0 {
      assert dropped == lines[1..];
    } else {
      var tail := lines[1..];
      DropBehindHead(lines, k);
      BlankLineIgnored(tail, k - 1);
      ParseLinesSameHead(dropped, lines);
    }
  }

  /**
   * _get_revoked_serials on a ledger text of any content: it succeeds exactly when every
   * line is blank or an integer, then holds exactly the integers the lines hold; otherwise
   * it reports the stripped text of the first line int() rejects.
   */
  lemma ParseLedgerMeaning(file: Option<string>)
    ensures file.Some? ==>
      (ParseLedger(file).Ok? <==> forall i :: 0 <= i < |Lines(file.value)| ==> Readable(Lines(file.value)[i]))
    ensures file.Some? && ParseLedger(file).Ok? ==>
      forall x :: x in ParseLedger(file).value <==> Lists(Lines(file.value), x)
    ensures file.Some? && ParseLedger(file).Err? ==>
      exists k :: FirstUnreadable(Lines(file.value), k) && ParseLedger(file).error == Strip(Lines(file.value)[k])
  {
    if file.Some? {
      var lines := Lines(file.value);
      ParseLinesAccepts(lines);
      if ParseLines(lines).Ok? {
        ParseLinesValue(lines);
      } else {
        ParseLinesError(lines);
      }
    }
  }

  ghost predicate StrictlyIncreasing(xs: seq<int>) {
    forall i, j :: 0 <= i < j < |xs| ==> xs[i] < xs[j]
  }

  lemma LeastExists(s: set<int>)
    requires s != {}
    ensures exists m :: m in s && forall x :: x in s ==> m <= x
    decreases |s|
  {
    Sets.NonEmptyHasElement(s);
    var y :| y in s;
    if s != {y} {
      LeastExists(s - {y});
      var m :| m in s - {y} && forall x :: x in s - {y} ==> m <= x;
      var least := if y < m then y else m;
      forall x | x in s
        ensures least <= x
      {
        if x != y { assert x in s - {y}; }
      }
      assert least in s;
    } else {
      assert forall x :: x in s ==> y <= x;
    }
  }

  function Least(s: set<int>): (m: int)
    requires s != {}
    ensures m in s && forall x :: x in s ==> m <= x
  {
    LeastExists(s);
    var m :| m in s && forall x :: x in s ==> m <= x;
    m
  }

  lemma PrependLeast(m: int, rest: seq<int>, serials: set<int>)
    requires m in serials && forall x :: x in serials ==> m <= x
    requires StrictlyIncreasing(rest) && |rest| == |serials - {m}|
    requires forall x :: x in rest <==> x in serials - {m}
    ensures StrictlyIncreasing([m] + rest)
    ensures forall x :: x in [m] + rest <==> x in serials
  {
    forall i | 0 <= i < |rest|
      ensures rest[i] in serials - {m}
    {
      assert rest[i] in rest;
    }
  }

  /** sorted(serials): every element once, in ascending order. */
  function SortedSerials(serials: set<int>): (r: seq<int>)
    ensures StrictlyIncreasing(r)
    ensures forall x :: x in r <==> x in serials
    ensures |r| == |serials|
    decreases |serials|
  {
    if serials == {} then []
    else
      var m := Least(serials);
      var rest := SortedSerials(serials - {m});
      PrependLeast(m, rest, serials);
      [m] + rest
  }

  /** A text whose lines are the given ones, each followed by "\n". */
  function Joined(lines: seq<string>): string
    decreases |lines|
  {
    if lines == [] then ""
    else Joined(lines[..|lines| - 1]) + lines[|lines| - 1] + "\n"
  }

  lemma {:induction false} JoinedFront(line: string, rest: seq<string>)
    ensures Joined([line] + rest) == line + "\n" + Joined(rest)
    decreases |rest|
  {
    if rest != [] {
      var init := rest[..|rest| - 1];
      assert ([line] + rest)[..|rest|] == [line] + init;
      JoinedFront(line, init);
    }
  }

  lemma JoinedSnoc(lines: seq<string>, i: nat)
    requires i < |lines|
    ensures Joined(lines[..i + 1]) == Joined(lines[..i]) + lines[i] + "\n"
  {
    assert lines[..i + 1][..i] == lines[..i];
  }

  /** str(serial) for every serial, in the order given. */
  function Decimals(serials: seq<int>): seq<string> {
    seq(|serials|, i requires 0 <= i < |serials| => Decimal.IntToString(serials[i]))
  }

  /** The text the write loop of _add_revoked_serial produces for the serials in order. */
  function RenderLedger(serials: seq<int>): string {
    Joined(Decimals(serials))
  }

  /**
   * A line break, "\n" or "\r" alike, ends the line before it: the text after the break is
   * split on its own.
   */
  lemma LinesAfterBreak(line: string, b: char, rest: string)
    requires NoLineBreak(line) && IsLineBreak(b)
    ensures Lines(line + [b] + rest) == [line] + Lines(rest)
  {
    var s := line + [b] + rest;
    assert s[|line|] == b;
    assert forall j :: 0 <= j < |line| ==> s[j] == line[j];
    var k := BreakFrom(s, 0);
    assert k == |line|;
    assert s[..|line|] == line;
    assert s[|line| + 1..] == rest;
  }

  lemma LinesAfterLine(line: string, rest: string)
    requires NoLineBreak(line)
    ensures Lines(line + "\n" + rest) == [line] + Lines(rest)
  {
    LinesAfterBreak(line, '\n', rest);
  }

  lemma DecimalHasNoBreakOrSpace(x: int)
    ensures NoLineBreak(Decimal.IntToString(x)) && NoSpace(Decimal.IntToString(x))
  {
    Decimal.IntToStringChars(x);
  }

  lemma DecimalsCons(x: int, rest: seq<int>)
    ensures Decimals([x] + rest) == [Decimal.IntToString(x)] + Decimals(rest)
  {
  }

  lemma RenderedLinesCons(x: int, rest: seq<int>)
    ensures Lines(RenderLedger([x] + rest)) == [Decimal.IntToString(x)] + Lines(RenderLedger(rest))
  {
    DecimalsCons(x, rest);
    JoinedFront(Decimal.IntToString(x), Decimals(rest));
    DecimalHasNoBreakOrSpace(x);
    LinesAfterLine(Decimal.IntToString(x), RenderLedger(rest));
  }

  /** Writing emits one line per serial, str(serial), in the order given. */
  lemma {:induction false} RenderedLines(serials: seq<int>)
    ensures Lines(RenderLedger(serials)) == Decimals(serials)
    decreases |serials|
  {
    if serials != [] {
      var x, rest := serials[0], serials[1..];
      assert serials == [x] + rest;
      RenderedLinesCons(x, rest);
      RenderedLines(rest);
      DecimalsCons(x, rest);
    }
  }

  /** One line written for a serial reads back as that serial. */
  lemma ParseDecimalLine(x: int)
    ensures Strip(Decimal.IntToString(x)) == Decimal.IntToString(x) != []
    ensures Decimal.ParseInt(Decimal.IntToString(x)) == Some(x)
  {
    DecimalHasNoBreakOrSpace(x);
    StripNoSpace(Decimal.IntToString(x));
    Decimal.ParseIntRoundTrip(x);
  }

  lemma ParsedLineCons(line: string, serial: int, lines: seq<string>)
    requires Strip(line) == line != [] && Decimal.ParseInt(line) == Some(serial)
    requires ParseLines(lines).Ok?
    ensures ParseLines([line] + lines) == Ok({serial} + ParseLines(lines).value)
  {
    assert ([line] + lines)[1..] == lines;
  }

  lemma ParsedLinesCons(x: int, lines: seq<string>)
    requires ParseLines(lines).Ok?
    ensures ParseLines([Decimal.IntToString(x)] + lines) == Ok({x} + ParseLines(lines).value)
  {
    ParseDecimalLine(x);
    ParsedLineCons(Decimal.IntToString(x), x, lines);
  }

  lemma PutBack(m: int, serials: set<int>)
    requires m in serials
    ensures {m} + (serials - {m}) == serials
  {
  }

  /** Reading back what was written gives the same set: parse(serialize(S)) == S. */
  lemma {:induction false} LedgerRoundTrip(serials: set<int>)
    ensures ParseLedger(Some(RenderLedger(SortedSerials(serials)))) == Ok(serials)
    decreases |serials|
  {
    if serials != {} {
      var m := Least(serials);
      var rest := serials - {m};
      var tail := SortedSerials(rest);
      assert SortedSerials(serials) == [m] + tail;
      RenderedLinesCons(m, tail);
      LedgerRoundTrip(rest);
      ParsedLinesCons(m, Lines(RenderLedger(tail)));
      PutBack(m, serials);
    }
  }

  /** A blank first line (whitespace other than line breaks) is skipped when the ledger is read. */
  lemma BlankLineSkipped(blank: string, rest: string)
    requires AllSpace(blank) && NoLineBreak(blank)
    ensures ParseLedger(Some(blank + "\n" + rest)) == ParseLedger(Some(rest))
  {
    LinesAfterLine(blank, rest);
    StripAllSpace(blank);
    assert ([blank] + Lines(rest))[1..] == Lines(rest);
  }

  /**
   * The for-loop of _add_revoked_serial: writes sorted(serials), one serial and a
   * newline at a time.
   */
  method WriteSerials(serials: set<int>) returns (text: string)
    ensures text == RenderLedger(SortedSerials(serials))
    ensures ParseLedger(Some(text)) == Ok(serials)
  {
    var ordered := SortedSerials(serials);
    ghost var lines := Decimals(ordered);
    text := "";
    for i := 0 to |ordered|
      invariant text == Joined(lines[..i])
    {
      JoinedSnoc(lines, i);
      text := text + Decimal.IntToString(ordered[i]) + "\n";
    }
    assert lines[..|lines|] == lines;
    LedgerRoundTrip(serials);
  }

  /**
   * The ledger file after _add_revoked_serial(serial): read, add, write back sorted. The
   * new file reads as the old set plus the serial; a ledger that does not read raises
   * that error and is not rewritten.
   */
  function LedgerAfterAdd(file: Option<string>, serial: int): (r: Result<string, string>)
    ensures r.Err? <==> ParseLedger(file).Err?
    ensures r.Err? ==> r.error == ParseLedger(file).error
    ensures r.Ok? ==> ParseLedger(Some(r.value)) == Ok(ParseLedger(file).value + {serial})
  {
    match ParseLedger(file)
    case Err(bad) => Err(bad)
    case Ok(revoked) =>
      LedgerRoundTrip(revoked + {serial});
      Ok(RenderLedger(SortedSerials(revoked + {serial})))
  }

  /** Revoking the same serial twice writes the same file as revoking it once. */
  lemma AddSerialIdempotent(file: Option<string>, serial: int)
    requires LedgerAfterAdd(file, serial).Ok?
    ensures LedgerAfterAdd(Some(LedgerAfterAdd(file, serial).value), serial) == LedgerAfterAdd(file, serial)
  {
    var revoked := ParseLedger(file).value + {serial};
    LedgerRoundTrip(revoked);
    assert revoked + {serial} == revoked;
  }

  lemma AddToParsed(text: string, revoked: set<int>, serial: int)
    requires ParseLedger(Some(text)) == Ok(revoked)
    ensures LedgerAfterAdd(Some(text), serial) == Ok(RenderLedger(SortedSerials(revoked + {serial})))
  {
  }

  /** Two revocations in a row write the file that holds both serials. */
  lemma AddTwoSerials(file: Option<string>, a: int, b: int)
    requires ParseLedger(file).Ok?
    ensures LedgerAfterAdd(Some(LedgerAfterAdd(file, a).value), b)
         == Ok(RenderLedger(SortedSerials(ParseLedger(file).value + {a, b})))
  {
    var once := ParseLedger(file).value + {a};
    assert once + {b} == ParseLedger(file).value + {a, b};
    LedgerRoundTrip(once);
    var text := RenderLedger(SortedSerials(once));
    assert LedgerAfterAdd(file, a) == Ok(text);
    AddToParsed(text, once, b);
  }

  /** The file does not record the order in which serials were revoked. */
  lemma AddSerialCommutes(file: Option<string>, a: int, b: int)
    requires ParseLedger(file).Ok?
    ensures LedgerAfterAdd(Some(LedgerAfterAdd(file, a).value), b)
         == LedgerAfterAdd(Some(LedgerAfterAdd(file, b).value), a)
  {
    var both := ParseLedger(file).value + {a, b};
    assert ParseLedger(file).value + {b, a} == both;
    AddTwoSerials(file, a, b);
    AddTwoSerials(file, b, a);
  }
}

=== FILE: Manager.dfy ===
/**
 * CertificateManager: the CA, the per-user certificate files, the revocation ledger and
 * the CRL, and the operations that change them. Each file is a field of the manager; a
 * file that does not exist is None (or a username missing from a map).
 *
 * The same class stands for the maintained manager of certbox/core and for the older
 * one of main.py, which has every operation here except renewal.
 */
module Manager {
  import opened Wrappers
  import opened X509
  import Ledger

  const CaCertFile: string := "ca.crt"
  const CaKeyFile: string := "ca.key"

  /** The PKCS#12 file for a user: key, certificate and the CA as trust anchor, unencrypted. */
  datatype Bundle = Bundle(friendlyName: string, key: RsaKey, cert: Certificate, cas: seq<Certificate>)

  /** What create_client_certificate reports (the file paths are left out). */
  datatype Issuance = Issuance(username: string, serial: int, validFrom: int, validUntil: int)

  /** What revoke_certificate reports. */
  datatype Revocation = Revocation(username: string, serial: int, revokedAt: int, status: string)

  /** What renew_certificate reports: the new certificate and the serial it revoked, if any. */
  datatype Renewal = Renewal(issued: Issuance, oldSerialRevoked: Option<int>)

  /** Everything on disk at one moment. */
  datatype Files = Files(
    caCert: Option<Certificate>,
    caKey: Option<RsaKey>,
    crl: Option<Crl>,
    ledger: Option<string>,
    certs: map<string, Certificate>,
    keys: map<string, RsaKey>,
    bundles: map<string, Bundle>)

  const NoFiles: Files := Files(None, None, None, None, map[], map[], map[])

  /** _load_ca: reads ca.crt, then ca.key; a missing file raises. */
  function LoadCa(caCert: Option<Certificate>, caKey: Option<RsaKey>): (r: Result<(Certificate, RsaKey), Failure>)
    ensures r.Ok? <==> caCert.Some? && caKey.Some?
    ensures caCert.None? ==> r == Err(FileMissing(CaCertFile))
    ensures caCert.Some? && caKey.None? ==> r == Err(FileMissing(CaKeyFile))
    ensures r.Ok? ==> r.value == (caCert.value, caKey.value)
  {
    match caCert
    case None => Err(FileMissing(CaCertFile))
    case Some(cert) =>
      match caKey
      case None => Err(FileMissing(CaKeyFile))
      case Some(key) => Ok((cert, key))
  }

  /**
   * _get_revoked_serials, with int()'s ValueError as LedgerLineInvalid: no file reads as
   * nothing revoked; a file reads as a set exactly when every line is blank or an
   * integer, and the set holds exactly the integers its lines hold; otherwise the first
   * line int() rejects is reported, stripped.
   */
  function RevokedSerials(ledger: Option<string>): (r: Result<set<int>, Failure>)
    ensures ledger.None? ==> r == Ok({})
    ensures ledger.Some? ==>
      (r.Ok? <==> forall i :: 0 <= i < |Ledger.Lines(ledger.value)| ==> Ledger.Readable(Ledger.Lines(ledger.value)[i]))
    ensures ledger.Some? && r.Ok? ==> forall x :: x in r.value <==> Ledger.Lists(Ledger.Lines(ledger.value), x)
    ensures ledger.Some? && r.Err? ==>
      exists k :: Ledger.FirstUnreadable(Ledger.Lines(ledger.value), k)
        && r.error == LedgerLineInvalid(Ledger.Strip(Ledger.Lines(ledger.value)[k]))
    ensures r.Ok? <==> Ledger.ParseLedger(ledger).Ok?
    ensures r.Ok? ==> r.value == Ledger.ParseLedger(ledger).value
  {
    Ledger.ParseLedgerMeaning(ledger);
    match Ledger.ParseLedger(ledger)
    case Ok(serials) => Ok(serials)
    case Err(line) => Err(LedgerLineInvalid(line))
  }

  /**
   * What _generate_crl does to the CRL file, reporting `outcome`: with the CA loaded and
   * the ledger read, it writes a CRL listing exactly the ledger's serials; when loading,
   * reading or building raises, the CRL file is left as it was.
   */
  ghost predicate CrlRegenerated(
    caCert: Option<Certificate>, caKey: Option<RsaKey>, ledger: Option<string>,
    before: Option<Crl>, after: Option<Crl>, now: int, outcome: Outcome<Failure>)
  {
    match LoadCa(caCert, caKey)
    case Err(e) => outcome == Fail(e) && after == before
    case Ok((ca, key)) =>
      match RevokedSerials(ledger)
      case Err(e) => outcome == Fail(e) && after == before
      case Ok(revoked) =>
        if forall s :: s in revoked ==> ValidSerial(s) then
          outcome == Pass && after.Some? && IsCrlFor(after.value, ca.subject, key, revoked, now)
        else
          && outcome.Fail? && outcome.error.SerialOutOfRange?
          && outcome.error.serial in revoked && !ValidSerial(outcome.error.serial)
          && after == before
  }

  /** The CRL on disk lists exactly the serials of the ledger on disk. */
  ghost predicate CrlMirrorsLedger(f: Files) {
    f.crl.Some? ==> RevokedSerials(f.ledger).Ok? && EntrySerials(f.crl.value.entries) == RevokedSerials(f.ledger).value
  }

  /**
   * A CRL written by _generate_crl mirrors the ledger it was built from, lists each
   * serial once, and is issued by the CA.
   */
  lemma RegeneratedCrlMirrorsLedger(
    caCert: Option<Certificate>, caKey: Option<RsaKey>, ledger: Option<string>,
    before: Option<Crl>, after: Option<Crl>, now: int)
    requires CrlRegenerated(caCert, caKey, ledger, before, after, now, Pass)
    ensures caCert.Some? && caKey.Some? && after.Some?
    ensures CrlMirrorsLedger(Files(caCert, caKey, after, ledger, map[], map[], map[]))
    ensures |after.value.entries| == |RevokedSerials(ledger).value|
    ensures after.value.issuer == caCert.value.subject && after.value.signedBy == caKey.value.id
  {
    var revoked := RevokedSerials(ledger).value;
    CrlEntryCount(after.value, caCert.value.subject, caKey.value, revoked, now);
  }

  /** A failed regeneration leaves the CRL file as it was. */
  lemma FailedRegenerationKeepsCrl(
    caCert: Option<Certificate>, caKey: Option<RsaKey>, ledger: Option<string>,
    before: Option<Crl>, after: Option<Crl>, now: int, outcome: Outcome<Failure>)
    requires CrlRegenerated(caCert, caKey, ledger, before, after, now, outcome)
    requires outcome.Fail?
    ensures after == before
  {
  }

  /** An empty ledger (or none) gives a CRL without entries. */
  lemma EmptyLedgerEmptyCrl(
    caCert: Option<Certificate>, caKey: Option<RsaKey>, before: Option<Crl>, after: Option<Crl>, now: int,
    outcome: Outcome<Failure>)
    requires caCert.Some? && caKey.Some?
    requires CrlRegenerated(caCert, caKey, None, before, after, now, outcome)
    ensures outcome == Pass && after.Some? && after.value.entries == []
  {
    var c := after.value;
    CrlEntryCount(c, caCert.value.subject, caKey.value, {}, now);
  }

  /**
   * What _generate_and_save_certificate fails with before it writes anything, if it
   * fails: loading the CA, then building the subject name, then the serial number.
   */
  function IssueCheck(caCert: Option<Certificate>, caKey: Option<RsaKey>, cfg: Config, username: string, serial: int)
    : (o: Outcome<Failure>)
    ensures o.Pass? <==> caCert.Some? && caKey.Some? && NameCheck(cfg, username).Pass? && ValidSerial(serial)
    ensures LoadCa(caCert, caKey).Err? ==> o == Fail(LoadCa(caCert, caKey).error)
    ensures caCert.Some? && caKey.Some? && NameCheck(cfg, username).Fail? ==> o == NameCheck(cfg, username)
    ensures caCert.Some? && caKey.Some? && NameCheck(cfg, username).Pass? && !ValidSerial(serial) ==>
      o == Fail(SerialOutOfRange(serial))
  {
    match LoadCa(caCert, caKey)
    case Err(e) => Fail(e)
    case Ok(_) => BuildCheck(cfg, username, serial)
  }

  /**
   * The files after _generate_and_save_certificate succeeded for `username`: a client
   * certificate of the profile, issued by the CA on disk, with its key and its bundle,
   * each replacing whatever the user had; nothing else changed.
   */
  ghost predicate WroteClientFiles(before: Files, after: Files, cfg: Config, username: string, keyId: nat, serial: int, now: int)
    requires before.caCert.Some? && before.caKey.Some?
  {
    var ca, caKey, key := before.caCert.value, before.caKey.value, GenerateKey(cfg, keyId);
    && username in after.certs
    && var cert := after.certs[username];
    && IsClientCertificate(cert, cfg, username, key, ca, caKey)
    && cert.serial == serial
    && ValidFor(cert, now, cfg.certValidityDays)
    && after == before.(
         certs := before.certs[username := cert],
         keys := before.keys[username := key],
         bundles := before.bundles[username := Bundle(username, key, cert, [ca])])
  }

  lemma WroteClientFilesIntro(before: Files, after: Files, cfg: Config, username: string, keyId: nat, serial: int, now: int, cert: Certificate)
    requires before.caCert.Some? && before.caKey.Some?
    requires IsClientCertificate(cert, cfg, username, GenerateKey(cfg, keyId), before.caCert.value, before.caKey.value)
    requires cert.serial == serial && ValidFor(cert, now, cfg.certValidityDays)
    requires after == before.(
         certs := before.certs[username := cert],
         keys := before.keys[username := GenerateKey(cfg, keyId)],
         bundles := before.bundles[username := Bundle(username, GenerateKey(cfg, keyId), cert, [before.caCert.value])])
    ensures WroteClientFiles(before, after, cfg, username, keyId, serial, now) && after.certs[username] == cert
  {
  }

  /** Rewriting the ledger and the CRL afterwards does not touch the files written for the user. */
  lemma WroteClientFilesKept(before: Files, written: Files, after: Files, cfg: Config, username: string, keyId: nat, serial: int, now: int)
    requires before.caCert.Some? && before.caKey.Some?
    requires WroteClientFiles(before, written, cfg, username, keyId, serial, now)
    requires after == written.(ledger := after.ledger, crl := after.crl)
    ensures WroteClientFiles(before, after.(ledger := before.ledger, crl := before.crl), cfg, username, keyId, serial, now)
  {
    assert after.(ledger := before.ledger, crl := before.crl) == written;
  }

  /**
   * Issuing for one user leaves every other user's files, the ledger and the CRL as they
   * were; the new certificate verifies against a CA of the profile and cannot act as one.
   */
  lemma IssuingTouchesOnlyThatUser(before: Files, after: Files, cfg: Config, username: string, keyId: nat, serial: int, now: int)
    requires before.caCert.Some? && before.caKey.Some?
    requires WroteClientFiles(before, after, cfg, username, keyId, serial, now)
    ensures forall u :: u != username ==> (u in after.certs <==> u in before.certs)
    ensures forall u :: u != username && u in before.certs ==> after.certs[u] == before.certs[u]
    ensures after.ledger == before.ledger && after.crl == before.crl
    ensures CrlMirrorsLedger(after) == CrlMirrorsLedger(before)
    ensures IsCaCertificate(before.caCert.value, cfg, before.caKey.value) ==>
      && ChainsTo(after.certs[username], before.caCert.value)
      && !MaySignCertificates(after.certs[username])
  {
    if IsCaCertificate(before.caCert.value, cfg, before.caKey.value) {
      ClientCertificateChains(after.certs[username], cfg, username, GenerateKey(cfg, keyId), before.caCert.value, before.caKey.value);
      ClientCertificateIsLeaf(after.certs[username], cfg, username, GenerateKey(cfg, keyId), before.caCert.value, before.caKey.value);
    }
  }

  class CertificateManager {
    const config: Config
    var caCert: Option<Certificate>
    var caKey: Option<RsaKey>
    var crl: Option<Crl>
    var ledger: Option<string>
    var certs: map<string, Certificate>
    var keys: map<string, RsaKey>
    var bundles: map<string, Bundle>

    ghost function Disk(): Files
      reads this
    {
      Files(caCert, caKey, crl, ledger, certs, keys, bundles)
    }

    /** The part of __init__ that binds the configuration and the files it works on. */
    constructor(config: Config, files: Files)
      ensures this.config == config && Disk() == files
    {
      this.config := config;
      caCert, caKey, crl, ledger := files.caCert, files.caKey, files.crl, files.ledger;
      certs, keys, bundles := files.certs, files.keys, files.bundles;
    }

    /**
     * The rest of __init__: a CA is created only when ca.crt or ca.key is missing; when
     * both exist nothing is written, so the CA is never regenerated.
     */
    method EnsureCa(keyId: nat, serial: int, now: int) returns (o: Outcome<Failure>)
      modifies this
      ensures old(caCert.Some? && caKey.Some?) ==> o == Pass && unchanged(this)
      ensures old(caCert.None? || caKey.None?) ==> CaCreated(old(Disk()), Disk(), keyId, serial, now, o)
    {
      if caCert.None? || caKey.None? {
        o := CreateCa(keyId, serial, now);
      } else {
        o := Pass;
      }
    }

    /**
     * The files after _create_ca reported `o`: the library refused the CA's name or the
     * serial and nothing was written, or a CA of the profile was written with its key
     * and _generate_crl ran on the result.
     */
    ghost predicate CaCreated(before: Files, after: Files, keyId: nat, serial: int, now: int, o: Outcome<Failure>) {
      if BuildCheck(config, config.caCommonName, serial).Fail? then
        o == BuildCheck(config, config.caCommonName, serial) && after == before
      else
        && after.caKey == Some(GenerateKey(config, keyId))
        && after.caCert.Some?
        && IsCaCertificate(after.caCert.value, config, after.caKey.value)
        && after.caCert.value.serial == serial
        && ValidFor(after.caCert.value, now, config.caValidityDays)
        && after == before.(caCert := after.caCert, caKey := after.caKey, crl := after.crl)
        && CrlRegenerated(after.caCert, after.caKey, after.ledger, before.crl, after.crl, now, o)
    }

    /** _create_ca: a fresh key, a self-signed CA certificate, both written, then the initial CRL. */
    method CreateCa(keyId: nat, serial: int, now: int) returns (o: Outcome<Failure>)
      modifies this
      ensures CaCreated(old(Disk()), Disk(), keyId, serial, now, o)
    {
      var key := GenerateKey(config, keyId);
      var built := BuildCaCertificate(config, key, serial, now);
      if built.Err? {
        return Fail(built.error);
      }
      caCert := Some(built.value);
      caKey := Some(key);
      o := GenerateCrl(now);
    }

    /**
     * _add_revoked_serial: reads the ledger, adds the serial, writes every serial back in
     * ascending order. A ledger line int() rejects raises before anything is written.
     */
    method AddRevokedSerial(serial: int) returns (o: Outcome<Failure>)
      modifies this
      ensures RevokedSerials(old(ledger)).Err? ==> o == Fail(RevokedSerials(old(ledger)).error) && unchanged(this)
      ensures RevokedSerials(old(ledger)).Ok? ==>
        && o == Pass
        && ledger == Some(Ledger.LedgerAfterAdd(old(ledger), serial).value)
        && RevokedSerials(ledger) == Ok(RevokedSerials(old(ledger)).value + {serial})
        && Disk() == old(Disk()).(ledger := ledger)
    {
      var read := RevokedSerials(ledger);
      if read.Err? {
        return Fail(read.error);
      }
      var text := Ledger.WriteSerials(read.value + {serial});
      ledger := Some(text);
      o := Pass;
    }

    /**
     * _generate_crl: loads the CA, reads the ledger, builds one entry per revoked serial,
     * signs, and overwrites the CRL file. Nothing but the CRL file changes.
     */
    method GenerateCrl(now: int) returns (o: Outcome<Failure>)
      modifies this
      ensures Disk() == old(Disk()).(crl := crl)
      ensures CrlRegenerated(caCert, caKey, ledger, old(crl), crl, now, o)
      ensures o.Pass? ==> CrlMirrorsLedger(Disk())
    {
      var loaded := LoadCa(caCert, caKey);
      if loaded.Err? {
        return Fail(loaded.error);
      }
      var read := RevokedSerials(ledger);
      if read.Err? {
        return Fail(read.error);
      }
      var built := BuildCrl(loaded.value.0.subject, loaded.value.1, read.value, now);
      if built.Err? {
        return Fail(built.error);
      }
      crl := Some(built.value);
      o := Pass;
    }

    /**
     * The two steps revoke_certificate and renew_certificate share: _add_revoked_serial,
     * then _generate_crl. When the second raises, the ledger already holds the serial.
     */
    method RecordRevocation(serial: int, now: int) returns (o: Outcome<Failure>)
      modifies this
      ensures RevokedSerials(old(ledger)).Err? ==> o == Fail(RevokedSerials(old(ledger)).error) && unchanged(this)
      ensures RevokedSerials(old(ledger)).Ok? ==>
        && ledger == Some(Ledger.LedgerAfterAdd(old(ledger), serial).value)
        && RevokedSerials(ledger) == Ok(RevokedSerials(old(ledger)).value + {serial})
        && Disk() == old(Disk()).(ledger := ledger, crl := crl)
        && CrlRegenerated(caCert, caKey, ledger, old(crl), crl, now, o)
      ensures o.Pass? ==> serial in RevokedSerials(ledger).value && CrlMirrorsLedger(Disk())
    {
      o := AddRevokedSerial(serial);
      if o.Fail? {
        return;
      }
      o := GenerateCrl(now);
    }

    /**
     * _generate_and_save_certificate: loads the CA, generates a key, builds and signs a
     * client certificate, then writes certificate, key and bundle for `username`.
     */
    method GenerateAndSave(username: string, keyId: nat, serial: int, now: int) returns (r: Result<Certificate, Failure>)
      modifies this
      ensures IssueCheck(old(caCert), old(caKey), config, username, serial).Fail? ==>
        r == Err(IssueCheck(old(caCert), old(caKey), config, username, serial).error) && unchanged(this)
      ensures IssueCheck(old(caCert), old(caKey), config, username, serial).Pass? ==>
        && WroteClientFiles(old(Disk()), Disk(), config, username, keyId, serial, now)
        && r == Ok(certs[username])
    {
      var loaded := LoadCa(caCert, caKey);
      if loaded.Err? {
        return Err(loaded.error);
      }
      var (ca, signer) := loaded.value;
      var key := GenerateKey(config, keyId);
      var built := BuildClientCertificate(config, ca, signer, username, key, serial, now);
      if built.Err? {
        return Err(built.error);
      }
      var cert := built.value;
      ghost var before := Disk();
      certs := certs[username := cert];
      keys := keys[username := key];
      bundles := bundles[username := Bundle(username, key, cert, [ca])];
      WroteClientFilesIntro(before, Disk(), config, username, keyId, serial, now, cert);
      r := Ok(cert);
    }

    /**
     * create_client_certificate: 409 when the user already has a certificate file, and
     * nothing is written; otherwise the user's three files are written.
     */
    method CreateClientCertificate(username: string, keyId: nat, serial: int, now: int) returns (r: Result<Issuance, Failure>)
      modifies this
      ensures username in old(certs) ==> r == Err(AlreadyExists(username)) && unchanged(this)
      ensures username !in old(certs) && IssueCheck(old(caCert), old(caKey), config, username, serial).Fail? ==>
        r == Err(IssueCheck(old(caCert), old(caKey), config, username, serial).error) && unchanged(this)
      ensures username !in old(certs) && IssueCheck(old(caCert), old(caKey), config, username, serial).Pass? ==>
        && WroteClientFiles(old(Disk()), Disk(), config, username, keyId, serial, now)
        && r == Ok(Issuance(username, serial, now, now + config.certValidityDays * SecondsPerDay))
      ensures r.Ok? ==> username in certs && username !in old(certs)
    {
      if username in certs {
        return Err(AlreadyExists(username));
      }
      var issued := GenerateAndSave(username, keyId, serial, now);
      if issued.Err? {
        return Err(issued.error);
      }
      var cert := issued.value;
      r := Ok(Issuance(username, cert.serial, cert.notBefore, cert.notAfter));
    }

    /**
     * revoke_certificate: 404 when the user has no certificate file, and nothing changes;
     * otherwise the serial of the stored certificate joins the ledger and the CRL is
     * regenerated. The certificate file stays where it is.
     */
    method RevokeCertificate(username: string, now: int) returns (r: Result<Revocation, Failure>)
      modifies this
      ensures username !in old(certs) ==> r == Err(NotFound(username)) && unchanged(this)
      ensures username in old(certs) && RevokedSerials(old(ledger)).Err? ==>
        r == Err(RevokedSerials(old(ledger)).error) && unchanged(this)
      ensures username in old(certs) && RevokedSerials(old(ledger)).Ok? ==>
        var serial := old(certs[username].serial);
        && ledger == Some(Ledger.LedgerAfterAdd(old(ledger), serial).value)
        && RevokedSerials(ledger) == Ok(RevokedSerials(old(ledger)).value + {serial})
        && Disk() == old(Disk()).(ledger := ledger, crl := crl)
        && CrlRegenerated(caCert, caKey, ledger, old(crl), crl, now, r.ToOutcome())
        && (r.Ok? ==> r.value == Revocation(username, serial, now, "revoked"))
      ensures r.Ok? ==> username in certs && certs[username].serial in RevokedSerials(ledger).value
      ensures r.Ok? ==> CrlMirrorsLedger(Disk())
    {
      if username !in certs {
        return Err(NotFound(username));
      }
      var serial := certs[username].serial;
      var recorded := RecordRevocation(serial, now);
      if recorded.Fail? {
        return Err(recorded.error);
      }
      r := Ok(Revocation(username, serial, now, "revoked"));
    }

    /**
     * renew_certificate: 404 when the user has no certificate file. Otherwise the serial
     * of the current certificate is read first (only when `revokeOld`), a new certificate
     * replaces the user's files, and then, when `revokeOld` and the old serial is not 0,
     * the old serial joins the ledger and the CRL is regenerated.
     */
    method RenewCertificate(username: string, revokeOld: bool, keyId: nat, serial: int, now: int)
      returns (r: Result<Renewal, Failure>)
      modifies this
      ensures username !in old(certs) ==> r == Err(NotFound(username)) && unchanged(this)
      ensures username in old(certs) && IssueCheck(old(caCert), old(caKey), config, username, serial).Fail? ==>
        r == Err(IssueCheck(old(caCert), old(caKey), config, username, serial).error) && unchanged(this)
      ensures username in old(certs) && IssueCheck(old(caCert), old(caKey), config, username, serial).Pass? ==>
        var oldSerial := old(certs[username].serial);
        var issued := Issuance(username, serial, now, now + config.certValidityDays * SecondsPerDay);
        && WroteClientFiles(old(Disk()), Disk().(ledger := old(ledger), crl := old(crl)), config, username, keyId, serial, now)
        && (!(revokeOld && oldSerial != 0) ==>
              ledger == old(ledger) && crl == old(crl) && r == Ok(Renewal(issued, None)))
        && (revokeOld && oldSerial != 0 && RevokedSerials(old(ledger)).Err? ==>
              ledger == old(ledger) && crl == old(crl) && r == Err(RevokedSerials(old(ledger)).error))
        && (revokeOld && oldSerial != 0 && RevokedSerials(old(ledger)).Ok? ==>
              && ledger == Some(Ledger.LedgerAfterAdd(old(ledger), oldSerial).value)
              && RevokedSerials(ledger) == Ok(RevokedSerials(old(ledger)).value + {oldSerial})
              && CrlRegenerated(caCert, caKey, ledger, old(crl), crl, now, r.ToOutcome())
              && (r.Ok? ==> r.value == Renewal(issued, Some(oldSerial))))
    {
      if username !in certs {
        return Err(NotFound(username));
      }
      var oldSerial: Option<int> := None;
      if revokeOld {
        oldSerial := Some(certs[username].serial);
      }
      var issued := GenerateAndSave(username, keyId, serial, now);
      if issued.Err? {
        return Err(issued.error);
      }
      var cert := issued.value;
      var report := Issuance(username, cert.serial, cert.notBefore, cert.notAfter);
      assert report == Issuance(username, serial, now, now + config.certValidityDays * SecondsPerDay) by {
        assert ValidFor(cert, now, config.certValidityDays);
      }
      ghost var written := Disk();
      if revokeOld && oldSerial.value != 0 {
        var recorded := RecordRevocation(oldSerial.value, now);
        WroteClientFilesKept(old(Disk()), written, Disk(), config, username, keyId, serial, now);
        if recorded.Fail? {
          return Err(recorded.error);
        }
        r := Ok(Renewal(report, oldSerial));
      } else {
        r := Ok(Renewal(report, None));
      }
    }

    /**
     * get_crl: the CRL file as it is when it exists; otherwise it is generated first.
     */
    method GetCrl(now: int) returns (r: Result<Crl, Failure>)
      modifies this
      ensures old(crl).Some? ==> r == Ok(old(crl).value) && unchanged(this)
      ensures old(crl).None? ==>
        && Disk() == old(Disk()).(crl := crl)
        && CrlRegenerated(caCert, caKey, ledger, old(crl), crl, now, r.ToOutcome())
        && (r.Ok? ==> crl == Some(r.value))
    {
      if crl.None? {
        var regenerated := GenerateCrl(now);
        if regenerated.Fail? {
          return Err(regenerated.error);
        }
      }
      r := Ok(crl.value);
    }
  }
}

=== FILE: Scenario.dfy ===
/**
 * Fresh deployments driven through the manager's operations, one call after another:
 * the CA is created, then users are issued certificates, revoked, and the CRL fetched.
 */
module Scenario {
  import opened Wrappers
  import opened X509
  import opened Manager
  import Ledger

  /** The user names the runs below use are within the library's length limits. */
  lemma UserNamesAccepted()
    ensures NameCheck(DefaultConfig, "alice").Pass? && NameCheck(DefaultConfig, "bob").Pass?
  {
    var alice, bob := "alice", "bob";
    assert Ascii(alice) && Ascii(bob);
    AsciiNameAccepted(alice);
    AsciiNameAccepted(bob);
  }

  /** A manager over empty directories whose CA has just been created. */
  method Bootstrap(caSerial: int, now: int) returns (m: CertificateManager)
    requires ValidSerial(caSerial)
    ensures fresh(m) && m.config == DefaultConfig
    ensures m.caCert.Some? && m.caKey.Some? && m.ledger == None && m.certs == map[]
    ensures m.crl.Some? && m.crl.value.entries == []
  {
    m := new CertificateManager(DefaultConfig, NoFiles);
    DefaultNamesAccepted();
    var started := m.EnsureCa(1, caSerial, now);
    EmptyLedgerEmptyCrl(m.caCert, m.caKey, None, m.crl, now, started);
  }

  /** A fresh deployment where alice has just been issued the only certificate. */
  method AliceIssued(caSerial: int, aliceSerial: int, now: int)
    returns (m: CertificateManager, issued: Result<Issuance, Failure>)
    requires ValidSerial(caSerial) && ValidSerial(aliceSerial)
    ensures fresh(m) && m.config == DefaultConfig
    ensures m.caCert.Some? && m.caKey.Some? && m.ledger == None
    ensures m.certs.Keys == {"alice"} && m.certs["alice"].serial == aliceSerial
    ensures issued == Ok(Issuance("alice", aliceSerial, now, now + 365 * SecondsPerDay))
  {
    m := Bootstrap(caSerial, now);
    UserNamesAccepted();
    issued := m.CreateClientCertificate("alice", 2, aliceSerial, now);
  }

  /** Issuing twice for alice conflicts; bob is then issued a certificate of his own. */
  method IssueConflict(caSerial: int, aliceSerial: int, bobSerial: int, now: int)
    returns (first: Result<Issuance, Failure>, second: Result<Issuance, Failure>, bob: Result<Issuance, Failure>)
    requires ValidSerial(caSerial) && ValidSerial(aliceSerial) && ValidSerial(bobSerial)
    ensures first == Ok(Issuance("alice", aliceSerial, now, now + 365 * SecondsPerDay))
    ensures second == Err(AlreadyExists("alice"))
    ensures bob == Ok(Issuance("bob", bobSerial, now, now + 365 * SecondsPerDay))
  {
    var m;
    m, first := AliceIssued(caSerial, aliceSerial, now);
    second := m.CreateClientCertificate("alice", 3, bobSerial, now);
    assert m.caCert.Some? && m.caKey.Some? && "bob" !in m.certs && m.config == DefaultConfig;
    UserNamesAccepted();
    bob := m.CreateClientCertificate("bob", 4, bobSerial, now);
  }

  /** Revoking alice, whose certificate is the only one, records her serial alone. */
  method AliceRevoked(caSerial: int, aliceSerial: int, now: int)
    returns (m: CertificateManager, revoked: Result<Revocation, Failure>)
    requires ValidSerial(caSerial) && ValidSerial(aliceSerial)
    ensures fresh(m) && m.caCert.Some? && m.caKey.Some?
    ensures "alice" in m.certs && m.certs["alice"].serial == aliceSerial
    ensures revoked == Ok(Revocation("alice", aliceSerial, now, "revoked"))
    ensures m.ledger == Some(Ledger.LedgerAfterAdd(None, aliceSerial).value)
    ensures RevokedSerials(m.ledger) == Ok({aliceSerial})
  {
    var issued;
    m, issued := AliceIssued(caSerial, aliceSerial, now);
    assert RevokedSerials(m.ledger) == Ok({});
    revoked := m.RevokeCertificate("alice", now);
    assert RevokedSerials(m.ledger) == Ok({} + {aliceSerial});
  }

  /**
   * Revoking alice puts her serial in the ledger and the CRL; revoking her again leaves
   * the ledger file as it was; fetching the CRL returns the one on disk.
   */
  method RevokeTwice(caSerial: int, aliceSerial: int, now: int)
    returns (
      revoked: Result<Revocation, Failure>,
      ledgerOnce: Option<string>,
      again: Result<Revocation, Failure>,
      ledgerTwice: Option<string>,
      crl: Result<Crl, Failure>)
    requires ValidSerial(caSerial) && ValidSerial(aliceSerial)
    ensures revoked == Ok(Revocation("alice", aliceSerial, now, "revoked"))
    ensures RevokedSerials(ledgerOnce) == Ok({aliceSerial})
    ensures again == Ok(Revocation("alice", aliceSerial, now, "revoked"))
    ensures ledgerTwice == ledgerOnce
    ensures crl.Ok? && EntrySerials(crl.value.entries) == {aliceSerial} && |crl.value.entries| == 1
  {
    var m;
    m, revoked := AliceRevoked(caSerial, aliceSerial, now);
    ledgerOnce := m.ledger;

    Ledger.AddSerialIdempotent(None, aliceSerial);
    again := m.RevokeCertificate("alice", now);
    ledgerTwice := m.ledger;

    crl := m.GetCrl(now);
    CrlEntryCount(crl.value, m.caCert.value.subject, m.caKey.value, {aliceSerial}, now);
  }
}

=== FILE: Sets.dfy ===
/** Facts about finite sets of serial numbers that the iterations over them rely on. */
module Sets {

  /** A set that is not empty has an element, so `x :| x in s` can pick one. */
  lemma NonEmptyHasElement(s: set<int>)
    requires s != {}
    ensures exists x :: x in s
  {
    if forall x :: x !in s { assert false; }
  }
}

=== FILE: Wrappers.dfy ===
/** Option, Result and Outcome, and the failures the certificate manager can raise. */
module Wrappers {

  datatype Option<+T> = None | Some(value: T)

  datatype Result<+T, +E> = Ok(value: T) | Err(error: E) {
    /** Forgets the success value: what a caller that only asks "did it raise?" sees. */
    function ToOutcome(): Outcome<E> {
      match this
      case Ok(_) => Pass
      case Err(e) => Fail(e)
    }
  }

  datatype Outcome<+E> = Pass | Fail(error: E)

  /**
   * The exceptions that leave the manager's operations.
   * HttpError is FastAPI's HTTPException (status code and detail text);
   * LedgerLineInvalid is the ValueError raised by int() on a line of the revocation
   * ledger; SerialOutOfRange is the ValueError the X.509 builders raise for a serial
   * number that is not positive or needs more than 159 bits; AttributeLengthInvalid is
   * the ValueError x509.NameAttribute raises for a country name or common name whose
   * UTF-8 encoding has a length it does not allow (the value is carried); FileMissing is
   * the FileNotFoundError of opening a file that is not there.
   */
  datatype Failure =
    | HttpError(status: int, detail: string)
    | FileMissing(file: string)
    | LedgerLineInvalid(line: string)
    | SerialOutOfRange(serial: int)
    | AttributeLengthInvalid(value: string)

  function AlreadyExists(username: string): Failure {
    HttpError(409, "Certificate for user '" + username + "' already exists")
  }

  function NotFound(username: string): Failure {
    HttpError(404, "Certificate for user '" + username + "' not found")
  }
}

=== FILE: X509.dfy ===
/**
 * The certificates, keys and revocation lists the manager writes, as records.
 * Keys, signatures and encodings are opaque: a key is known by an identifier, and a
 * signature by the identifier of the key that made it. What is kept is the content
 * of each record: names, serial number, validity, and the extensions of the profile
 * of RFC 5280 (basic constraints, section 4.2.1.9; key usage, section 4.2.1.3;
 * extended key usage, section 4.2.1.12; key identifiers, sections 4.2.1.1 and
 * 4.2.1.2; the revocation list, section 5).
 */
module X509 {
  import opened Wrappers
  import Sets

  const SecondsPerDay: int := 86400
  const PublicExponent: nat := 65537

  /** 2^159: serial numbers need at most 159 bits. */
  const SerialLimit: int := 0x8000_0000_0000_0000_0000_0000_0000_0000_0000_0000

  /**
   * The serial numbers the certificate and revoked-certificate builders accept:
   * positive and at most 159 bits (RFC 5280 section 4.1.2.2 allows 20 octets).
   * Any other number makes the builder raise ValueError.
   */
  predicate ValidSerial(serial: int) {
    0 < serial < SerialLimit
  }

  /** CertConfig: validity periods in days, RSA key size, and the subject fields. */
  datatype Config = Config(
    certValidityDays: int,
    caValidityDays: int,
    keySize: int,
    country: string,
    stateProvince: string,
    locality: string,
    organization: string,
    caCommonName: string)

  /** The values CertConfig has when no environment variable overrides them. */
  const DefaultConfig: Config :=
    Config(365, 3650, 2048, "ES", "Catalonia", "Girona", "GISCE-TI", "GISCE-TI CA")

  /** A distinguished name with the five attributes the manager sets, in its order. */
  datatype Name = Name(
    country: string,
    stateOrProvince: string,
    locality: string,
    organization: string,
    commonName: string)

  /** The subject the manager gives a certificate: the configured fields, then the CN. */
  function SubjectName(cfg: Config, commonName: string): (n: Name)
    ensures n.commonName == commonName
    ensures n.organization == cfg.organization && n.country == cfg.country
  {
    Name(cfg.country, cfg.stateProvince, cfg.locality, cfg.organization, commonName)
  }

  /** The number of bytes of a character in UTF-8. */
  function Utf8Width(c: char): (w: nat)
    ensures 1 <= w <= 4
  {
    if c as int < 0x80 then 1
    else if c as int < 0x800 then 2
    else if c as int < 0x1_0000 then 3
    else 4
  }

  /** len(s.encode("utf8")): between one and four bytes per character. */
  function Utf8Length(s: string): (n: nat)
    ensures |s| <= n <= 4 * |s|
    ensures s == [] <==> n == 0
    decreases |s|
  {
    if s == [] then 0 else Utf8Width(s[0]) + Utf8Length(s[1..])
  }

  predicate Ascii(s: string) {
    forall i :: 0 <= i < |s| ==> s[i] as int < 0x80
  }

  /** Text of ASCII characters takes one byte per character. */
  lemma {:induction false} AsciiUtf8Length(s: string)
    requires Ascii(s)
    ensures Utf8Length(s) == |s|
    decreases |s|
  {
    if s != [] {
      assert Ascii(s[1..]);
      AsciiUtf8Length(s[1..]);
    }
  }

  /**
   * The length limits x509.NameAttribute enforces on the attributes the manager sets:
   * a country name of exactly 2 bytes and a common name of 1 to 64 bytes (UTF-8);
   * state, locality and organisation are not limited. The attributes are built in the
   * order of the name, country first, so a bad country is reported before a bad CN.
   */
  function NameCheck(cfg: Config, commonName: string): (o: Outcome<Failure>)
    ensures o.Pass? <==> Utf8Length(cfg.country) == 2 && 1 <= Utf8Length(commonName) <= 64
    ensures o.Fail? ==> o.error.AttributeLengthInvalid?
    ensures Utf8Length(cfg.country) != 2 ==> o == Fail(AttributeLengthInvalid(cfg.country))
    ensures o.Fail? && Utf8Length(cfg.country) == 2 ==> o.error.value == commonName
  {
    if Utf8Length(cfg.country) != 2 then Fail(AttributeLengthInvalid(cfg.country))
    else if !(1 <= Utf8Length(commonName) <= 64) then Fail(AttributeLengthInvalid(commonName))
    else Pass
  }

  /**
   * What building a certificate for `commonName` raises before anything is signed: the
   * subject name is built first, then the builder is given the serial number.
   */
  function BuildCheck(cfg: Config, commonName: string, serial: int): (o: Outcome<Failure>)
    ensures o.Pass? <==> NameCheck(cfg, commonName).Pass? && ValidSerial(serial)
    ensures NameCheck(cfg, commonName).Fail? ==> o == NameCheck(cfg, commonName)
    ensures NameCheck(cfg, commonName).Pass? && !ValidSerial(serial) ==> o == Fail(SerialOutOfRange(serial))
  {
    match NameCheck(cfg, commonName)
    case Fail(e) => Fail(e)
    case Pass => if ValidSerial(serial) then Pass else Fail(SerialOutOfRange(serial))
  }

  lemma DefaultNameLengths()
    ensures Utf8Length("ES") == 2 && Utf8Length("GISCE-TI CA") == 11
  {
    var country, name := "ES", "GISCE-TI CA";
    assert Ascii(country) && Ascii(name);
    AsciiUtf8Length(country);
    AsciiUtf8Length(name);
  }

  /** The default configuration's country and CA name are accepted. */
  lemma DefaultNamesAccepted()
    ensures NameCheck(DefaultConfig, DefaultConfig.caCommonName).Pass?
  {
    DefaultNameLengths();
  }

  /** Under the default configuration, any ASCII user name of 1 to 64 characters is accepted. */
  lemma AsciiNameAccepted(username: string)
    requires Ascii(username) && 1 <= |username| <= 64
    ensures NameCheck(DefaultConfig, username).Pass?
  {
    DefaultNameLengths();
    AsciiUtf8Length(username);
  }

  /** An RSA key pair, known by an identifier; `id` stands for the key material. */
  datatype RsaKey = RsaKey(id: nat, publicExponent: nat, bits: int)

  /**
   * rsa.generate_private_key(public_exponent=65537, key_size=cfg.key_size): a new key,
   * told apart from every other by its identity, with the fixed public exponent and the
   * configured modulus size.
   */
  function GenerateKey(cfg: Config, id: nat): (k: RsaKey)
    ensures k.id == id
    ensures k.publicExponent == 65537 && k.bits == cfg.keySize
  {
    RsaKey(id, PublicExponent, cfg.keySize)
  }

  datatype KeyUsageBit =
    | DigitalSignature | ContentCommitment | KeyEncipherment | DataEncipherment
    | KeyAgreement | KeyCertSign | CrlSign | EncipherOnly | DecipherOnly

  datatype KeyPurpose =
    | ServerAuth | ClientAuth | CodeSigning | EmailProtection | TimeStamping | OcspSigning

  /** Key identifiers are derived from a public key; here they carry its identifier. */
  datatype Extension =
    | SubjectKeyIdentifier(subjectKey: nat)
    | AuthorityKeyIdentifier(authorityKey: nat)
    | BasicConstraints(ca: bool, pathLength: Option<nat>)
    | KeyUsage(usages: set<KeyUsageBit>)
    | ExtendedKeyUsage(purposes: seq<KeyPurpose>)

  datatype ExtensionKind = SkiKind | AkiKind | BasicConstraintsKind | KeyUsageKind | ExtendedKeyUsageKind

  function KindOf(e: Extension): ExtensionKind {
    match e
    case SubjectKeyIdentifier(_) => SkiKind
    case AuthorityKeyIdentifier(_) => AkiKind
    case BasicConstraints(_, _) => BasicConstraintsKind
    case KeyUsage(_) => KeyUsageKind
    case ExtendedKeyUsage(_) => ExtendedKeyUsageKind
  }

  datatype Ext = Ext(value: Extension, critical: bool)

  /** The extension of the given kind, the first one if there were several. */
  function Find(exts: seq<Ext>, kind: ExtensionKind): (r: Option<Ext>)
    ensures r.Some? ==> r.value in exts && KindOf(r.value.value) == kind
    ensures r.None? ==> forall i :: 0 <= i < |exts| ==> KindOf(exts[i].value) != kind
    decreases |exts|
  {
    if exts == [] then None
    else if KindOf(exts[0].value) == kind then Some(exts[0])
    else Find(exts[1..], kind)
  }

  /** No extension appears twice (the builder raises when one is added twice). */
  predicate UniqueKinds(exts: seq<Ext>) {
    forall i, j :: 0 <= i < j < |exts| ==> KindOf(exts[i].value) != KindOf(exts[j].value)
  }

  datatype Certificate = Certificate(
    serial: int,
    subject: Name,
    issuer: Name,
    publicKey: RsaKey,
    notBefore: int,
    notAfter: int,
    extensions: seq<Ext>,
    signedBy: nat)

  /** The certificate carries this extension value with this criticality. */
  predicate Carries(c: Certificate, e: Extension, critical: bool) {
    Ext(e, critical) in c.extensions
  }

  /** When no kind repeats, looking an extension up by its kind finds that extension. */
  lemma {:induction false} FindUnique(exts: seq<Ext>, x: Ext)
    requires UniqueKinds(exts) && x in exts
    ensures Find(exts, KindOf(x.value)) == Some(x)
    decreases |exts|
  {
    if exts[0] != x {
      var k :| 0 <= k < |exts| && exts[k] == x;
      assert k > 0 && KindOf(exts[0].value) != KindOf(exts[k].value);
      assert exts[1..][k - 1] == x;
      assert UniqueKinds(exts[1..]) by {
        forall i, j | 0 <= i < j < |exts| - 1
          ensures KindOf(exts[1..][i].value) != KindOf(exts[1..][j].value)
        {
          assert exts[1..][i] == exts[i + 1] && exts[1..][j] == exts[j + 1];
        }
      }
      FindUnique(exts[1..], x);
    }
  }

  /** basicConstraints says cA (section 4.2.1.9). */
  predicate IsCa(c: Certificate) {
    match Find(c.extensions, BasicConstraintsKind)
    case Some(Ext(BasicConstraints(ca, _), _)) => ca
    case _ => false
  }

  /** The key usages keyUsage asserts; none when it is absent. */
  function Usages(c: Certificate): set<KeyUsageBit> {
    match Find(c.extensions, KeyUsageKind)
    case Some(Ext(KeyUsage(bits), _)) => bits
    case _ => {}
  }

  /** The purposes extendedKeyUsage lists; none when it is absent. */
  function Purposes(c: Certificate): seq<KeyPurpose> {
    match Find(c.extensions, ExtendedKeyUsageKind)
    case Some(Ext(ExtendedKeyUsage(ps), _)) => ps
    case _ => []
  }

  /** Section 4.2.1.9: a key may sign certificates only if cA is set and keyCertSign asserted. */
  predicate MaySignCertificates(c: Certificate) {
    IsCa(c) && KeyCertSign in Usages(c)
  }

  /** Section 4.2.1.3: cRLSign must be asserted for the key to sign revocation lists. */
  predicate MaySignCrls(c: Certificate) {
    CrlSign in Usages(c)
  }

  function SubjectKeyId(c: Certificate): Option<nat> {
    match Find(c.extensions, SkiKind)
    case Some(Ext(SubjectKeyIdentifier(k), _)) => Some(k)
    case _ => None
  }

  function AuthorityKeyId(c: Certificate): Option<nat> {
    match Find(c.extensions, AkiKind)
    case Some(Ext(AuthorityKeyIdentifier(k), _)) => Some(k)
    case _ => None
  }

  /**
   * `child` verifies against `parent`: it names the parent's subject as issuer, was
   * signed with the parent's key, its authority key identifier is the parent's subject
   * key identifier, and the parent may sign certificates.
   */
  predicate ChainsTo(child: Certificate, parent: Certificate) {
    && child.issuer == parent.subject
    && child.signedBy == parent.publicKey.id
    && AuthorityKeyId(child).Some?
    && AuthorityKeyId(child) == SubjectKeyId(parent)
    && MaySignCertificates(parent)
  }

  /** Valid for `days` days from `now` (seconds), both ends as written by the builder. */
  predicate ValidFor(c: Certificate, now: int, days: int) {
    c.notBefore == now && c.notAfter == now + days * SecondsPerDay
  }

  /** The CA profile of _create_ca: a self-signed root allowed to sign certificates and CRLs only. */
  predicate IsCaCertificate(c: Certificate, cfg: Config, key: RsaKey) {
    && c.subject == SubjectName(cfg, cfg.caCommonName)
    && c.issuer == c.subject
    && c.publicKey == key
    && c.signedBy == key.id
    && UniqueKinds(c.extensions)
    && Carries(c, BasicConstraints(true, None), true)
    && Carries(c, KeyUsage({KeyCertSign, CrlSign}), true)
    && Carries(c, SubjectKeyIdentifier(key.id), false)
    && Carries(c, AuthorityKeyIdentifier(key.id), false)
    && (forall i :: 0 <= i < |c.extensions| ==> KindOf(c.extensions[i].value) != ExtendedKeyUsageKind)
  }

  /** The client profile of _generate_and_save_certificate, issued by `ca`. */
  predicate IsClientCertificate(c: Certificate, cfg: Config, username: string, key: RsaKey, ca: Certificate, caKey: RsaKey) {
    && c.subject == SubjectName(cfg, username)
    && c.issuer == ca.subject
    && c.publicKey == key
    && c.signedBy == caKey.id
    && UniqueKinds(c.extensions)
    && Carries(c, BasicConstraints(false, None), true)
    && Carries(c, KeyUsage({DigitalSignature, KeyEncipherment}), true)
    && Carries(c, ExtendedKeyUsage([ClientAuth]), true)
    && Carries(c, SubjectKeyIdentifier(key.id), false)
    && Carries(c, AuthorityKeyIdentifier(caKey.id), false)
  }

  /**
   * The subject name and CertificateBuilder chain of _create_ca. A name attribute of a
   * length the library refuses, or a serial number out of range, raises before anything
   * is signed.
   */
  function BuildCaCertificate(cfg: Config, key: RsaKey, serial: int, now: int): (r: Result<Certificate, Failure>)
    ensures r.Ok? <==> NameCheck(cfg, cfg.caCommonName).Pass? && ValidSerial(serial)
    ensures r.Err? ==> Fail(r.error) == BuildCheck(cfg, cfg.caCommonName, serial)
    ensures r.Ok? ==> IsCaCertificate(r.value, cfg, key) && r.value.serial == serial
    ensures r.Ok? ==> ValidFor(r.value, now, cfg.caValidityDays)
  {
    if BuildCheck(cfg, cfg.caCommonName, serial).Fail? then Err(BuildCheck(cfg, cfg.caCommonName, serial).error)
    else
      var subject := SubjectName(cfg, cfg.caCommonName);
      Ok(Certificate(serial, subject, subject, key, now, now + cfg.caValidityDays * SecondsPerDay,
        [ Ext(SubjectKeyIdentifier(key.id), false),
          Ext(AuthorityKeyIdentifier(key.id), false),
          Ext(BasicConstraints(true, None), true),
          Ext(KeyUsage({KeyCertSign, CrlSign}), true) ],
        key.id))
  }

  /**
   * The subject name and CertificateBuilder chain of _generate_and_save_certificate: a
   * client certificate for `username`, issued and signed by the CA. A name attribute of
   * a length the library refuses, or a serial number out of range, raises first.
   */
  function BuildClientCertificate(cfg: Config, ca: Certificate, caKey: RsaKey, username: string, key: RsaKey, serial: int, now: int)
    : (r: Result<Certificate, Failure>)
    ensures r.Ok? <==> NameCheck(cfg, username).Pass? && ValidSerial(serial)
    ensures r.Err? ==> Fail(r.error) == BuildCheck(cfg, username, serial)
    ensures r.Ok? ==> IsClientCertificate(r.value, cfg, username, key, ca, caKey) && r.value.serial == serial
    ensures r.Ok? ==> ValidFor(r.value, now, cfg.certValidityDays)
  {
    if BuildCheck(cfg, username, serial).Fail? then Err(BuildCheck(cfg, username, serial).error)
    else
      Ok(Certificate(serial, SubjectName(cfg, username), ca.subject, key, now, now + cfg.certValidityDays * SecondsPerDay,
        [ Ext(SubjectKeyIdentifier(key.id), false),
          Ext(AuthorityKeyIdentifier(caKey.id), false),
          Ext(BasicConstraints(false, None), true),
          Ext(KeyUsage({DigitalSignature, KeyEncipherment}), true),
          Ext(ExtendedKeyUsage([ClientAuth]), true) ],
        caKey.id))
  }

  /** A CA certificate of the profile is a root: it verifies against itself and may sign CRLs. */
  lemma CaCertificateIsRoot(c: Certificate, cfg: Config, key: RsaKey)
    requires IsCaCertificate(c, cfg, key)
    ensures ChainsTo(c, c)
    ensures MaySignCrls(c)
    ensures DigitalSignature !in Usages(c) && KeyEncipherment !in Usages(c)
  {
    FindUnique(c.extensions, Ext(BasicConstraints(true, None), true));
    FindUnique(c.extensions, Ext(KeyUsage({KeyCertSign, CrlSign}), true));
    FindUnique(c.extensions, Ext(SubjectKeyIdentifier(key.id), false));
    FindUnique(c.extensions, Ext(AuthorityKeyIdentifier(key.id), false));
  }

  /**
   * A client certificate cannot act as a CA: it may sign neither certificates nor CRLs,
   * and it serves client authentication only.
   */
  lemma ClientCertificateIsLeaf(c: Certificate, cfg: Config, username: string, key: RsaKey, ca: Certificate, caKey: RsaKey)
    requires IsClientCertificate(c, cfg, username, key, ca, caKey)
    ensures !MaySignCertificates(c) && !MaySignCrls(c)
    ensures Purposes(c) == [ClientAuth]
  {
    FindUnique(c.extensions, Ext(BasicConstraints(false, None), true));
    assert !IsCa(c);
    FindUnique(c.extensions, Ext(KeyUsage({DigitalSignature, KeyEncipherment}), true));
    assert Usages(c) == {DigitalSignature, KeyEncipherment};
    FindUnique(c.extensions, Ext(ExtendedKeyUsage([ClientAuth]), true));
  }

  /** A client certificate verifies against the CA that issued it. */
  lemma ClientCertificateChains(c: Certificate, cfg: Config, username: string, key: RsaKey, ca: Certificate, caKey: RsaKey)
    requires IsClientCertificate(c, cfg, username, key, ca, caKey)
    requires IsCaCertificate(ca, cfg, caKey)
    ensures ChainsTo(c, ca)
    ensures c.subject.commonName == username && c.issuer.commonName == cfg.caCommonName
  {
    CaCertificateIsRoot(ca, cfg, caKey);
    FindUnique(ca.extensions, Ext(SubjectKeyIdentifier(caKey.id), false));
    FindUnique(c.extensions, Ext(AuthorityKeyIdentifier(caKey.id), false));
    assert AuthorityKeyId(c) == Some(caKey.id) == SubjectKeyId(ca);
  }

  datatype RevokedEntry = RevokedEntry(serial: int, revocationDate: int)

  /** A signed revocation list (RFC 5280 section 5). */
  datatype Crl = Crl(
    issuer: Name,
    lastUpdate: int,
    nextUpdate: int,
    entries: seq<RevokedEntry>,
    signedBy: nat)

  /** The serial numbers the entries list. */
  function EntrySerials(entries: seq<RevokedEntry>): set<int>
    decreases |entries|
  {
    if entries == [] then {}
    else EntrySerials(entries[..|entries| - 1]) + {entries[|entries| - 1].serial}
  }

  predicate DistinctSerials(entries: seq<RevokedEntry>) {
    forall i, j :: 0 <= i < j < |entries| ==> entries[i].serial != entries[j].serial
  }

  /**
   * What _generate_crl signs: issued by the CA's subject with the CA key, valid from
   * `now` for one day, listing each revoked serial exactly once, revoked at `now`.
   */
  ghost predicate IsCrlFor(c: Crl, issuer: Name, key: RsaKey, revoked: set<int>, now: int) {
    && c.issuer == issuer
    && c.signedBy == key.id
    && c.lastUpdate == now
    && c.nextUpdate == now + SecondsPerDay
    && EntrySerials(c.entries) == revoked
    && DistinctSerials(c.entries)
    && (forall i :: 0 <= i < |c.entries| ==> c.entries[i].revocationDate == now)
  }

  lemma {:induction false} EntrySerialsMember(entries: seq<RevokedEntry>, x: int)
    ensures x in EntrySerials(entries) <==> exists i :: 0 <= i < |entries| && entries[i].serial == x
    decreases |entries|
  {
    if entries != [] {
      var init := entries[..|entries| - 1];
      EntrySerialsMember(init, x);
      if x in EntrySerials(init) {
        var i :| 0 <= i < |init| && init[i].serial == x;
        assert entries[i].serial == x;
      }
      if exists i :: 0 <= i < |entries| && entries[i].serial == x {
        var i :| 0 <= i < |entries| && entries[i].serial == x;
        if i < |init| {
          assert init[i].serial == x;
        }
      }
    }
  }

  /** A list without repeated serials has as many entries as serials: none is listed twice. */
  lemma {:induction false} EntryCount(entries: seq<RevokedEntry>)
    requires DistinctSerials(entries)
    ensures |EntrySerials(entries)| == |entries|
    decreases |entries|
  {
    if entries != [] {
      var init := entries[..|entries| - 1];
      var last := entries[|entries| - 1].serial;
      EntryCount(init);
      forall i | 0 <= i < |init|
        ensures init[i].serial != last
      {
        assert init[i] == entries[i];
      }
      EntrySerialsMember(init, last);
    }
  }

  /** A CRL built for a set of serials has one entry per revoked serial. */
  lemma CrlEntryCount(c: Crl, issuer: Name, key: RsaKey, revoked: set<int>, now: int)
    requires IsCrlFor(c, issuer, key, revoked, now)
    ensures |c.entries| == |revoked|
    ensures forall i :: 0 <= i < |c.entries| ==> c.entries[i].serial in revoked
  {
    EntryCount(c.entries);
    forall i | 0 <= i < |c.entries|
      ensures c.entries[i].serial in revoked
    {
      EntrySerialsMember(c.entries, c.entries[i].serial);
    }
  }

  /**
   * The body of _generate_crl from the builder on: one RevokedCertificateBuilder per
   * serial of the set, in the set's iteration order, each checked for range as it is
   * built. The first serial out of range raises and no CRL is signed.
   */
  method BuildCrl(issuer: Name, key: RsaKey, revoked: set<int>, now: int) returns (r: Result<Crl, Failure>)
    ensures r.Ok? <==> forall s :: s in revoked ==> ValidSerial(s)
    ensures r.Ok? ==> IsCrlFor(r.value, issuer, key, revoked, now)
    ensures r.Err? ==> r.error.SerialOutOfRange? && r.error.serial in revoked && !ValidSerial(r.error.serial)
  {
    var entries: seq<RevokedEntry> := [];
    var remaining := revoked;
    while remaining != {}
      invariant remaining <= revoked
      invariant EntrySerials(entries) == revoked - remaining
      invariant DistinctSerials(entries)
      invariant forall i :: 0 <= i < |entries| ==> entries[i].serial !in remaining
      invariant forall i :: 0 <= i < |entries| ==> entries[i].revocationDate == now
      invariant forall s :: s in revoked - remaining ==> ValidSerial(s)
      decreases |remaining|
    {
      Sets.NonEmptyHasElement(remaining);
      var serial :| serial in remaining;
      if !ValidSerial(serial) {
        return Err(SerialOutOfRange(serial));
      }
      var entry := RevokedEntry(serial, now);
      assert (entries + [entry])[..|entries|] == entries;
      entries := entries + [entry];
      remaining := remaining - {serial};
    }
    return Ok(Crl(issuer, now, now + SecondsPerDay, entries, key.id));
  }
}
